=== FILE: README.md ===
# Platformer simulation step, modelled in Dafny

This project models the simulation core of a 2D side-scrolling platformer
(`game.js`): the per-frame update that moves the player, the patrolling
enemies, the coins, the particles and the goal check, together with death
and lives, level loading and level progression. The DOM, canvas and audio
are stripped away. What remains is a deterministic state machine:

- `Geometry`: boxes, the strict overlap test and the platform-contact
  classifier (`none`, `top`, `left`, `right`).
- `Particles`: the random stream `Math.random` draws from, particle bursts
  and the per-frame particle filter.
- `Physics`: the player record and the pure stages of `updatePlayer`:
  invulnerability countdown, steering with a speed clamp and friction,
  jump and coyote time, gravity with terminal velocity, integration, the
  animation state machine, platform resolution in list order, and the
  left-wall clamp.
- `Enemies`: the enemy record and one enemy's patrol step with
  bounce-and-revert and the purple pause.
- `Coins`: coin animation and the coin pass, including the splice made
  while the list is being walked by index.
- `Levels`: the three-level catalogue and the level width used for camera
  bounds.
- `ScreenShake`: the shake a death starts, which decays by a tenth per
  rendered frame and snaps to 0 below 0.5.
- `Session`: the game session, death and lives, the camera, the enemy and
  coin passes, the goal check, one frame, and starting a game and moving
  to the next level.

Positions and velocities are `real`, which is exact rational arithmetic in
place of JavaScript doubles. Counters (animation timer, coyote timer,
invulnerability timer, pause timer, lives, score) are `int`. Keys are
passed as held-state booleans per frame. `Math.random` is an explicit
stream (`Particles.Rng`), consumed in the order the frame step, level
loading and the renderer consume it: nine draws per particle in field
order, one per purple enemy per frame, one per coin when a level loads,
and two per rendered frame while the screen shakes (`Session.RenderShake`).
The timer-driven end-of-level particles are the exception; see "## Left out". The coin bob `Math.sin(phase) * 0.5` is an
opaque function parameter. `Math.PI * 2` is the double constant
6.283185307179586.

Faithfulness points the model keeps:

- Jump reads the held Space key, not a key-press edge. It sees `grounded`
  as the previous frame's platform resolution left it.
- `coyoteTime` is missing from the initial player object. Every comparison
  reads it as 0, so the model starts it at 0. The same holds for a purple
  enemy's `pauseTimer`.
- ArrowLeft takes precedence over ArrowRight.
- The animation step runs before platform resolution.
- Platforms are resolved in list order, each against the player as the
  earlier ones left it, so the last contact wins on each axis.
- The coin list is walked by index while collected coins are spliced out.
  The coin right after a collected one moves into the visited slot, so it
  is neither animated nor considered for collection that frame (`Coins.CoinAfterCollectedIsSkipped`).
- The enemy, coin, particle and goal passes of a frame run even after a
  death in the same frame has stopped the game.

The model follows the code also where its behaviour looks unintended:

- Lives are not clamped at 0. After the game-over death the player is
  neither reset nor made invulnerable. A second touching enemy in the same
  pass therefore takes lives to -1 (`Session.LivesCanDropBelowZero`).
- After the last level, `nextLevel` moves the level counter to 4. The level
  width then falls back to the view width. The camera is left where it was,
  so it can sit outside the new camera range. That is why
  `Session.NextLevelKeepsValid` applies only below the last level.

## Model

| member | source | states |
|---|---|---|
| Geometry.OverlapsSymmetric | game.js:463-468 | the overlap test is symmetric |
| Geometry.TouchingDoNotOverlap | game.js:463-468 | boxes that share only an edge do not overlap, because all four comparisons are strict |
| Geometry.PlatformContact | game.js:471-486 | no overlap gives no contact; `top` exactly when overlapping, falling and starting above the top edge; `left`/`right` only when overlapping with the centre beyond that edge; an overlapping box that does not land and has its centre over the platform reports nothing |
| Geometry.SideContactsExcludeLanding | game.js:471-486 | a side contact is never reported for a landing box, and never for a box whose centre is over the platform |
| Particles.Spawn | game.js:490-503 | one particle takes nine draws in field order; with draws in [0,1) it starts within 5 units of the origin, with life and maxLife in [30,50), rising speed in (2,12] and size in [2,8) |
| Particles.CreateParticles | game.js:489-504 | exactly `count` particles, all of the requested kind, using 9·count draws; with uniform draws every life is in [30,50) |
| Particles.AddBurst | game.js:489-504 | the existing particles are kept in order, and exactly `count` new ones of the kind follow them |
| Particles.Advance | game.js:508-515 | one frame moves by the old velocity, then adds 0.4 of gravity to velY, scales velX by the drag 0.98, adds the spin to the rotation and takes exactly 1 off life; maxLife, kind, size and spin are unchanged |
| Particles.UpdateParticles | game.js:507-517 | the result is no longer than the input, and every survivor has positive life |
| Particles.UpdateParticlesAppend | game.js:507-517 | the filter treats each particle independently: updating a concatenation is concatenating the updates |
| Particles.AgedKeepsIdentity | game.js:508-515 | after n frames a particle's life is exactly n less, and its maxLife and kind are unchanged |
| Particles.UpdateParticlesNIsSurvivors | game.js:507-517 | after n ≥ 1 updates the list is the order-preserving subsequence of the original particles whose life exceeds n, each aged n frames |
| Particles.ParticleLivesExactlyLifeFrames | game.js:507-517 | a particle with whole-number life L is still present after L−1 updates (life 1, same maxLife and kind) and is gone on the L-th |
| Physics.TickInvulnerability | game.js:546-553 | only an invulnerable player counts down; the flag drops exactly when the timer reaches 0; nothing else changes |
| Physics.InvulnerabilityWindow | game.js:546-553 | a window opened with timer T stays open with timer T−n for n < T ticks and closes on the T-th tick |
| Physics.InvulnerabilityClearsOn120th | game.js:546-553 | the 120-frame window granted after a death is still open after 119 ticks and clears on exactly the 120th |
| Physics.Coast | game.js:571-574 | with no key held, velocity becomes 0.85·v, or exactly 0 when that is below 0.1 in magnitude; it never grows |
| Physics.Steer | game.js:563-574 | a velocity within ±5 stays within ±5; left (winning over right) moves the velocity down by exactly 0.8 unless that passes −5, where it stops at −5, and always lowers it when above −5; right does the same upward toward 5; with no key held friction applies and never speeds the player up |
| Physics.CoastNBound | game.js:571-574 | idle frames shrink \|velX\| at least geometrically, by 0.85 per frame |
| Physics.CoastNFromRest | game.js:571-574 | a player at rest with no input stays exactly at rest |
| Physics.FrictionStopsWithin25Frames | game.js:571-574 | with no input, any velocity within the speed limit is exactly 0 after 25 frames |
| Physics.FrictionFromFullSpeed | game.js:571-574 | from velX = 5 with no input the velocity goes 4.25, then 3.6125 |
| Physics.JumpAndCoyote | game.js:576-589 | a held jump with grounded or coyote > 0 sets velY = −15, clears grounded and coyote; otherwise velY and grounded stay, and the coyote timer becomes 8 when grounded or counts down to 0 |
| Physics.CoyoteCountdown | game.js:584-589 | airborne frames without a jump take the timer from 8 down by one per frame to 0, and the player stays airborne |
| Physics.CoyoteWindow | game.js:576-589 | after leaving a platform, a held jump is accepted on exactly the first eight airborne frames |
| Physics.ApplyGravity | game.js:591-596 | gravity adds 0.8 to velY and clamps it at the terminal velocity 16 |
| Physics.Integrate | game.js:599-603 | the position moves by exactly the velocity; nothing else changes |
| Physics.IntegrateReversible | game.js:599-603 | integrating again with the velocity reversed puts the player back where it was |
| Physics.Animate | game.js:520-543 | the animation timer advances by one; airborne gives `jump` with frame 0 when rising and 1 otherwise; grounded gives `run` exactly when \|velX\| > 0.5, else `idle`; a grounded frame changes only on a timer tick divisible by 6 (run) or 40 (idle), and on such a tick it advances cyclically over 4 run frames or 2 idle frames; the frame stays in 0..3; facing changes only when \|velX\| > 0.5, to the sign of velX |
| Physics.ResolveOne | game.js:611-625 | `top` leaves y + height = platform.y, velY = 0 and grounded; `left`/`right` snap x to the edge and zero velX only when velX points into the platform; otherwise nothing changes |
| Physics.ResolveSeparates | game.js:611-625 | every resolved contact leaves the player touching that platform but not overlapping it |
| Physics.ResolveAllFacts | game.js:611-625 | resolving a list only zeroes velocities, never changes them otherwise, and a grounded result rests (velY = 0) on the top edge of some platform |
| Physics.ResolveAll | game.js:611-625 | resolving the platforms in order only zeroes velocities, never changes them otherwise, and touches nothing but position, velocity and grounded |
| Physics.ResolvePlatforms | game.js:609-625 | with grounded recomputed from false, the player ends grounded only at rest (velY = 0) with the feet on some platform's top edge; velocities are kept or zeroed |
| Physics.LandingOnOnlyPlatform | game.js:609-625 | landing on the only platform puts the feet on its top edge, at rest and grounded |
| Physics.LastLandingWins | game.js:611-625 | whatever earlier platforms did, landing on the last platform in the list determines the final y, velY and grounded |
| Physics.ClampLeft | game.js:628-631 | afterwards x ≥ 0; a player left of 0 is put at 0 with velX = 0; otherwise nothing changes |
| Physics.Move | game.js:546-631 | after one movement step x ≥ 0, velY ≤ 16, a grounded player is at rest on some platform's top edge, and the invulnerability window has counted down one frame, closing when its timer was 1 |
| Physics.MoveKeepsBounds | game.js:556-631 | one movement step keeps \|velX\| ≤ 5, animFrame in 0..3 and coyote ≥ 0 |
| Enemies.LastSupport | game.js:724-738 | the fallback scan finds the last supporting platform in list order, or none exactly when no platform supports the enemy |
| Enemies.MustTurn | game.js:712-745 | with a home platform, an enemy turns exactly when the new x is not strictly inside [p.x+5, p.x+p.width−35]; without one, it keeps going exactly when the last platform supporting it in list order has the new x strictly between its left edge and its right edge minus the enemy width |
| Enemies.Patrol | game.js:703-765 | on reversal velX is negated and x restored to its old value; a purple enemy whose pause starts or runs keeps its old x and its timer decrements; other kinds ignore the draw; y, size, kind and home are unchanged |
| Enemies.PatrolStaysInBand | game.js:712-760 | an enemy with a valid home platform that starts in its patrol band is still in the band after the step, whatever the pause draw |
| Enemies.PatrolKeepsSpeed | game.js:740-745 | patrolling only ever flips the sign of velX |
| Enemies.TurnThenMoveBack | game.js:740-745 | an enemy that bounces at the band edge moves back into the band on the next frame |
| Coins.Bob | game.js:779-782 | a frame advances the phase by 0.2 and moves y by the bob offset at the new phase; x and size are unchanged |
| Coins.CoinWalk | game.js:777-805 | every coin is either kept or taken, and every taken coin overlaps the player |
| Coins.ForEachCoin | game.js:777-788 | the walk by index accounts for every coin as kept or taken, extends the taken list without touching the earlier entries, and every coin it takes overlaps the player |
| Coins.ForEachCoinIsWalk | game.js:777-788 | the walk by index with in-place splicing equals the coin-by-coin description in which the coin after a collected one is skipped |
| Coins.UpdateCoinList | game.js:777-805 | the coin pass is the coin-by-coin walk: kept + taken account for every coin, and each taken coin overlaps the player |
| Coins.CoinAfterCollectedIsSkipped | game.js:777-788 | at any point of the walk, when the coin at the visited index is collected, the coin after it lands in that slot exactly as it was, neither animated nor considered for collection |
| Coins.AdjacentCoinsTakeTwoFrames | game.js:777-788 | of two touched coins at the head of the list, the first frame collects only the first and leaves the second at the head untouched; the next frame collects it |
| Coins.NoTouchAnimatesAll | game.js:777-805 | when no coin is touched none is taken and each one is animated in place |
| Levels.LevelData | game.js:318-404 | the catalogue has a level exactly for numbers 1 to 3 |
| Levels.LevelTableWellFormed | game.js:318-404 | in every level each enemy's home platform index is valid, its start x is within [p.x+5, p.x+p.width−35], and it is not paused |
| Levels.MaxRight | game.js:650-653 | the scan gives the largest platform right edge, or 0 |
| Levels.LevelWidth | game.js:646-655 | for a missing level the width is the view width 1000; otherwise it is the largest of 0, every platform's right edge and the goal's right edge + 200 |
| Levels.LevelWidths | game.js:646-655 | the three levels are 1840, 2090 and 2340 units wide |
| Levels.RightEdges | game.js:318-404 | on every level the last platform reaches furthest right: 1750, 1950 and 2250 |
| ScreenShake.DecayShake | game.js:831-837 | a positive shake becomes nine tenths of itself, or exactly 0 when that is below 0.5; it always shrinks and never goes negative; no shake stays as it is |
| ScreenShake.SettledStaysSettled | game.js:831-837 | once the shake is 0 it stays 0, so no further shake draws are taken |
| ScreenShake.ShakeFollowsScale | game.js:831-837 | until the cutoff is reached the shake after n frames is v·0.9ⁿ |
| ScreenShake.FallShakeLasts38Frames | game.js:831-836 | the shake of 25 that a fall death sets (game.js:662) is positive for 37 rendered frames and 0 after the 38th, so 38 frames take the two shake draws |
| ScreenShake.EnemyShakeLasts33Frames | game.js:831-836 | the shake of 15 that an enemy death sets (game.js:662) is positive for 32 rendered frames and 0 after the 33rd, so 33 frames take the two shake draws |
| Session.ResetPlayer | game.js:686-693 | the player is put back at (50, 350) with zero velocity, idle, with coyote 0, and everything else is kept |
| Session.HandleDeath | game.js:658-683 | while invulnerable nothing happens; otherwise lives drops by exactly 1, the screen shake is set to 25 (fall) or 15 (enemy), and 20 (fall) or 12 (enemy) hit particles are appended; at lives ≤ 0 the game stops with the game-over dialog and a shake of 30 (game.js:1241-1258); otherwise the player is reset, the camera is put at 0 and the player is invulnerable for 120 frames |
| Session.FollowCamera | game.js:638-642 | the camera closes 10% of its distance to the target player.x − 1000/3 clamped to [0, max(0, levelWidth − 1000)], and stays in that range when it starts there |
| Session.UpdatePlayer | game.js:556-643 | nothing happens while the game is not running; otherwise the player makes one movement step and loses a life exactly when it ends below y = 600 while not invulnerable; without a death the camera follows the moved player; a death with lives left puts the player at (50, 350), invulnerable for 120 frames, and the camera follows from 0; the last death stops the game with the game-over dialog; score, level, goal, platforms, enemies and coins never change |
| Session.UpdateEnemiesFrom | game.js:703-774 | every enemy from index i on takes exactly one patrol step (a purple one with one of the two pause outcomes, the others without pausing) and the earlier ones are unchanged; if the player is not invulnerable and touches one of the moved enemies a life is lost, and with two or more lives exactly one, because the death makes the player invulnerable for the rest of the pass; if no enemy is touched lives, player and particles are unchanged; score, level, goal, platforms and coins never change |
| Session.UpdateEnemies | game.js:703-774 | the whole enemy pass keeps the number of enemies, never raises lives, and keeps every enemy inside its patrol band |
| Session.UpdateEnemiesFromKeepsBands | game.js:703-774 | enemies that start in their patrol bands stay in them through the whole pass |
| Session.CoinBursts | game.js:793-799 | one six-particle burst per collected coin, in collection order: burst k fills slots 6k..6k+5, is centred on the k-th collected coin and is drawn after the 54·k draws of the earlier bursts |
| Session.UpdateCoins | game.js:777-805 | the coins left are exactly those the coin walk keeps; the collected coins' bursts are appended after the old particles; the score rises by exactly 100 per collected coin; nothing else changes |
| Session.CheckGoal | game.js:808-822 | touching the goal adds exactly 50 × coins left and stops the game with the level-complete dialog (before level 3) or the game-won dialog; otherwise nothing changes |
| Session.RenderShake | game.js:830-837 | rendering takes exactly two draws from the stream when the screen shakes and none otherwise, decays the shake, and changes nothing else |
| Session.Frame | game.js:1151-1168 | a frame of a game that is not running changes nothing |
| Session.FrameScore | game.js:1151-1168 | over a running frame the score grows by exactly 100 per coin that left the list, plus 50 per remaining coin exactly when the player ends the frame on the goal, so it never decreases |
| Session.Frames | game.js:1151-1168 | a run of frames leaves a stopped game as it is, and never changes the level, its platforms or its goal |
| Session.FramesScoreMonotone | game.js:1151-1168 | the score never decreases across any sequence of frames |
| Session.SeedPhases | game.js:430 | each coin gets the phase 60 × its own draw, one draw per coin in order |
| Session.LoadLevel | game.js:421-441 | the level's platforms, enemies, goal and coins (with fresh phases) replace the live ones; the player goes to (50, 350) at rest, idle and not invulnerable; the camera goes to 0 and the screen stops shaking; nothing else changes |
| Session.InitLevel | game.js:417-442 | loading a missing level changes nothing; loading a level installs its entities, resets the player and camera and stops the shake, keeping score, lives, level counter and running flag |
| Session.NextLevel | game.js:1212-1238 | the level counter goes up by one; past the last level the game stops with the game-won dialog; otherwise the next level is loaded and play resumes |
| Session.StartGame | game.js:1123-1148 | a new game has score 0, three lives, level 1 loaded, the game running, the camera at 0 and no shake |
| Session.RestartGame | game.js:1294-1303 | a restart clears the particles and starts a new game |
| Session.HandleDeathKeepsValid | game.js:658-700 | death keeps the session invariant: score, player bounds, camera range and enemy bands |
| Session.UpdatePlayerKeepsValid | game.js:556-643 | the player step keeps the session invariant |
| Session.UpdateEnemiesFromKeepsValid | game.js:703-774 | the enemy pass, deaths included, keeps the session invariant |
| Session.CoinsAndGoalKeepValid | game.js:777-822 | the coin pass, the particle update and the goal check keep the session invariant |
| Session.FrameKeepsValid | game.js:1151-1168 | a whole frame keeps the session invariant |
| Session.FramesKeepValid | game.js:1151-1168 | any sequence of frames keeps the session invariant |
| Session.StartGameIsValid | game.js:1123-1148 | a newly started game satisfies the session invariant |
| Session.PageLoadStartsValid | game.js:1123-1148 | the first game started after the page loads is valid, has no particles and has the player at the level start |
| Session.NextLevelKeepsValid | game.js:1212-1238 | moving on to a level of the catalogue keeps the session invariant |
| Session.InvulnerableIgnoresEnemies | game.js:769-772 | while invulnerable, the enemy pass changes neither lives, particles, player, camera, running flag nor dialog |
| Session.LastLifeLostToEnemy | game.js:658-683 | with one life left, the level's only enemy, red or pink, touching the player after its patrol step takes lives to 0 and ends the game with the game-over dialog |
| Session.LivesCanDropBelowZero | game.js:658-683 | with one life left and two red or pink enemies, possibly different, both touching the player after their patrol steps, lives ends the pass at −1 |
| Session.ContactWithoutLivesLeft | game.js:658-683 | a red or pink enemy touching a player with at most one life costs that life and leaves the player in place and vulnerable, and the other enemies as they were |
| Session.CoinPickup | game.js:777-805 | when the coin at (470, 360, 20, 20) is the only coin and the bob offset is 0, touching it removes it, adds exactly 100 points and appends a burst of six coin particles centred on the coin |
| Session.GoalWithThreeCoins | game.js:808-813 | reaching the goal with three coins left adds exactly 150 points and stops the game |

## Left out

- Audio (`playSound`, `toggleMute`, `resumeAudioContext`, background music): these are browser APIs whose failures never reach the simulation. Sound events are dropped.
- All drawing: the render functions, the shake offset applied to the canvas, the debug overlay and the resize handler. They only draw. The one part of `render` that changes simulated state, the shake counter and its two random draws per frame, is modelled (`Session.RenderShake`).
- Asset and image loading, fallback sprites and the later reassignment of render and loop functions. These are I/O, and the reassigned versions do not change the simulation step.
- Screen and dialog DOM toggling, `updateUI`, level theme classes and the CSS transition timers in `resetPlayerPosition`. `Session.Modal` records only which end-of-play dialog was shown.
- Pause toggling, keyboard shortcuts, the window blur handler, touch gestures and FPS monitoring. These are event plumbing. `togglePause` is not modelled: because the screen stays `game` after the game-over, level-complete and game-won dialogs, it can also resume a finished game, and the model has no transition that does that.
- When a death ends the game and the goal is then reached in the same frame, the source shows both the game-over and the level-complete dialogs. `Session.Modal` keeps only the last one shown.
- The celebration particles of `showLevelComplete` (30 coin particles after 500 ms) and the victory particles of `showGameWon` (50 particles, one every 100 ms, at random positions and of random kind). They are appended to the live particle list by `setTimeout` callbacks outside the frame step, consume random draws at wall-clock-determined moments, and are not cleared by `initLevel`; the model's particle list and random stream see only what the frame step and the restart do. The `Date.now` time bonus is left out for the same reason.
- `Math.sin` in the coin bob: it is an opaque parameter `bob`, so no property depends on its values.
- IEEE-754 rounding: `real` is exact, so properties that hinge on double rounding are out of scope.
- The level table's element objects are shared with the live lists by the shallow copies in `initLevel`. The model treats the catalogue as immutable, so it does not model positions that carry over when a level is replayed.
- `gameState.camera.y` is always 0 and is not modelled. The unused `oldY` in `updatePlayer` is not modelled either.
- Session.Frame: its own contract states only the not-running case. What a running frame does is stated by `Session.FrameScore`, `Session.FrameKeepsValid` and the contracts of the passes it chains.
- Session.UpdateEnemiesFrom: for a purple enemy it states that the patrol step took one of the two pause outcomes, not which stream position the pause draw used; `Session.EnemyStep` fixes that order, but no contract states it.
- Physics.Animate: the frame cycle uses Dafny's remainder, which differs from JavaScript's `%` only for a negative timer; the timer starts at 0 and only counts up, so that case is not modelled.

=== FILE: coins.dfy ===
/** Coins: every frame each coin's animation phase advances and it bobs
    vertically; a coin the player overlaps is removed from the list. The
    list is walked by index while coins are spliced out of it, so the coin
    right after a collected one moves into the visited slot and is neither
    animated nor considered for collection that frame. */
module Coins {
  import opened Geometry

  datatype Coin = Coin(x: real, y: real, width: real, height: real, phase: real)

  const PhaseStep: real := 0.2

  function CoinBox(c: Coin): Rect
  {
    Rect(c.x, c.y, c.width, c.height)
  }

  /** One frame of coin animation. `bob` stands for the vertical offset
      `sin(phase) * 0.5`, taken at the advanced phase. */
  function Bob(c: Coin, bob: real -> real): (r: Coin)
    ensures r.phase == c.phase + PhaseStep
    ensures r.y == c.y + bob(c.phase + PhaseStep)
    ensures r.x == c.x && r.width == c.width && r.height == c.height
  {
    var ph := c.phase + PhaseStep;
    c.(phase := ph, y := c.y + bob(ph))
  }

  /** The outcome of one pass over the coins: the coins left in the list,
      and the collected ones (as they were when collected) in order. */
  datatype CoinPass = CoinPass(kept: seq<Coin>, taken: seq<Coin>)

  /** The walk by index, as the game performs it: `arr` is the live list,
      `k` the index visited next and `len0` the list's length when the walk
      began; an index past the shrunken list is skipped. */
  function ForEachCoin(arr: seq<Coin>, k: nat, len0: nat, player: Rect, bob: real -> real, taken: seq<Coin>): (r: CoinPass)
    ensures |r.kept| + |r.taken| == |arr| + |taken|
    ensures |r.taken| >= |taken| && r.taken[..|taken|] == taken
    ensures forall i :: |taken| <= i < |r.taken| ==> Overlaps(player, CoinBox(r.taken[i]))
    decreases len0 - k
  {
    if k >= len0 then CoinPass(arr, taken)
    else if k >= |arr| then ForEachCoin(arr, k + 1, len0, player, bob, taken)
    else
      var c := Bob(arr[k], bob);
      if Overlaps(player, CoinBox(c)) then
        ForEachCoin(arr[..k] + arr[k + 1..], k + 1, len0, player, bob, taken + [c])
      else
        ForEachCoin(arr[k := c], k + 1, len0, player, bob, taken)
  }

  /** The same walk described coin by coin: an animated coin the player
      overlaps is taken and the coin after it is kept untouched and unseen;
      any other coin is kept animated. */
  function CoinWalk(cs: seq<Coin>, player: Rect, bob: real -> real): (r: CoinPass)
    ensures |r.kept| + |r.taken| == |cs|
    ensures forall i :: 0 <= i < |r.taken| ==> Overlaps(player, CoinBox(r.taken[i]))
    decreases |cs|
  {
    if |cs| == 0 then CoinPass([], [])
    else
      var c := Bob(cs[0], bob);
      if Overlaps(player, CoinBox(c)) then
        if |cs| == 1 then CoinPass([], [c])
        else
          var rest := CoinWalk(cs[2..], player, bob);
          CoinPass([cs[1]] + rest.kept, [c] + rest.taken)
      else
        var rest := CoinWalk(cs[1..], player, bob);
        CoinPass([c] + rest.kept, rest.taken)
  }

  /** The index walk over a list whose first |done| slots are finished
      produces those slots followed by the coin-by-coin walk of the rest. */
  lemma {:induction false} ForEachCoinIsWalk(done: seq<Coin>, rest: seq<Coin>, len0: nat, player: Rect, bob: real -> real, taken: seq<Coin>)
    requires |done| + |rest| <= len0
    ensures var w := CoinWalk(rest, player, bob);
      ForEachCoin(done + rest, |done|, len0, player, bob, taken) == CoinPass(done + w.kept, taken + w.taken)
    decreases len0 - |done|
  {
    if |rest| == 0 {
      assert done + rest == done;
      SkipToEnd(done, |done|, len0, player, bob, taken);
    } else if Overlaps(player, CoinBox(Bob(rest[0], bob))) {
      TakeStep(done, rest, len0, player, bob, taken);
    } else {
      KeepStep(done, rest, len0, player, bob, taken);
    }
  }

  lemma {:induction false} TakeStep(done: seq<Coin>, rest: seq<Coin>, len0: nat, player: Rect, bob: real -> real, taken: seq<Coin>)
    requires |done| + |rest| <= len0 && |rest| > 0
    requires Overlaps(player, CoinBox(Bob(rest[0], bob)))
    ensures var w := CoinWalk(rest, player, bob);
      ForEachCoin(done + rest, |done|, len0, player, bob, taken) == CoinPass(done + w.kept, taken + w.taken)
    decreases len0 - |done|, 0
  {
    var arr := done + rest;
    var k := |done|;
    var c := Bob(rest[0], bob);
    assert arr[k] == rest[0];
    var arr' := arr[..k] + arr[k + 1..];
    var taken' := taken + [c];
    assert ForEachCoin(arr, k, len0, player, bob, taken) == ForEachCoin(arr', k + 1, len0, player, bob, taken');
    if |rest| == 1 {
      TakeLast(done, rest, len0, player, bob, taken);
    } else {
      var w := CoinWalk(rest[2..], player, bob);
      assert CoinWalk(rest, player, bob) == CoinPass([rest[1]] + w.kept, [c] + w.taken);
      assert arr' == (done + [rest[1]]) + rest[2..];
      ForEachCoinIsWalk(done + [rest[1]], rest[2..], len0, player, bob, taken');
      assert (done + [rest[1]]) + w.kept == done + ([rest[1]] + w.kept);
      assert taken' + w.taken == taken + ([c] + w.taken);
    }
  }

  /** Collecting the last coin of the list ends the walk. */
  lemma {:induction false} TakeLast(done: seq<Coin>, rest: seq<Coin>, len0: nat, player: Rect, bob: real -> real, taken: seq<Coin>)
    requires |done| + |rest| <= len0 && |rest| == 1
    requires Overlaps(player, CoinBox(Bob(rest[0], bob)))
    ensures var c := Bob(rest[0], bob);
      && CoinWalk(rest, player, bob) == CoinPass([], [c])
      && ForEachCoin((done + rest)[..|done|] + (done + rest)[|done| + 1..], |done| + 1, len0, player, bob, taken + [c])
         == CoinPass(done, taken + [c])
  {
    var arr := done + rest;
    var k := |done|;
    var arr' := arr[..k] + arr[k + 1..];
    assert arr' == done;
    SkipToEnd(arr', k + 1, len0, player, bob, taken + [Bob(rest[0], bob)]);
  }

  lemma {:induction false} KeepStep(done: seq<Coin>, rest: seq<Coin>, len0: nat, player: Rect, bob: real -> real, taken: seq<Coin>)
    requires |done| + |rest| <= len0 && |rest| > 0
    requires !Overlaps(player, CoinBox(Bob(rest[0], bob)))
    ensures var w := CoinWalk(rest, player, bob);
      ForEachCoin(done + rest, |done|, len0, player, bob, taken) == CoinPass(done + w.kept, taken + w.taken)
    decreases len0 - |done|, 0
  {
    var arr := done + rest;
    var k := |done|;
    var c := Bob(rest[0], bob);
    assert arr[k] == rest[0];
    var arr' := arr[k := c];
    assert ForEachCoin(arr, k, len0, player, bob, taken) == ForEachCoin(arr', k + 1, len0, player, bob, taken);
    var w := CoinWalk(rest[1..], player, bob);
    assert CoinWalk(rest, player, bob) == CoinPass([c] + w.kept, w.taken);
    assert arr' == (done + [c]) + rest[1..];
    ForEachCoinIsWalk(done + [c], rest[1..], len0, player, bob, taken);
    assert (done + [c]) + w.kept == done + ([c] + w.kept);
  }

  /** Indices past the end of the list are skipped without effect. */
  lemma {:induction false} SkipToEnd(arr: seq<Coin>, k: nat, len0: nat, player: Rect, bob: real -> real, taken: seq<Coin>)
    requires |arr| <= k
    ensures ForEachCoin(arr, k, len0, player, bob, taken) == CoinPass(arr, taken)
    decreases len0 - k
  {
    if k < len0 {
      SkipToEnd(arr, k + 1, len0, player, bob, taken);
    }
  }

  /** The coin update: the index walk over the whole list. Every coin ends
      up either kept or collected, and every collected coin overlaps the
      player. */
  function UpdateCoinList(cs: seq<Coin>, player: Rect, bob: real -> real): (r: CoinPass)
    ensures r == CoinWalk(cs, player, bob)
    ensures |r.kept| + |r.taken| == |cs|
    ensures forall i :: 0 <= i < |r.taken| ==> Overlaps(player, CoinBox(r.taken[i]))
  {
    ForEachCoinIsWalk([], cs, |cs|, player, bob, []);
    assert [] + cs == cs;
    ForEachCoin(cs, 0, |cs|, player, bob, [])
  }

  /** The splice quirk, wherever the walk has got to: when the coin `a` at
      the visited index is collected, the coin `b` after it lands in that
      slot exactly as it was, not animated and not considered for
      collection, even if the player overlaps it. */
  lemma CoinAfterCollectedIsSkipped(done: seq<Coin>, a: Coin, b: Coin, rest: seq<Coin>, len0: nat,
                                    player: Rect, bob: real -> real, taken: seq<Coin>)
    requires |done| + 2 + |rest| <= len0
    requires Overlaps(player, CoinBox(Bob(a, bob)))
    ensures var r := ForEachCoin(done + ([a, b] + rest), |done|, len0, player, bob, taken);
      && |r.kept| > |done| && r.kept[|done|] == b
      && |r.taken| > |taken| && r.taken[|taken|] == Bob(a, bob)
  {
    ForEachCoinIsWalk(done, [a, b] + rest, len0, player, bob, taken);
    assert ([a, b] + rest)[2..] == rest;
  }

  /** Two overlapping coins at the head of the list take two frames: the
      first frame collects only the first, and leaves the second at the head,
      untouched, for the next frame to collect. */
  lemma AdjacentCoinsTakeTwoFrames(a: Coin, b: Coin, rest: seq<Coin>, player: Rect, bob: real -> real)
    requires Overlaps(player, CoinBox(Bob(a, bob))) && Overlaps(player, CoinBox(Bob(b, bob)))
    ensures var r1 := UpdateCoinList([a, b] + rest, player, bob);
      && |r1.taken| > 0 && r1.taken[0] == Bob(a, bob)
      && |r1.kept| > 0 && r1.kept[0] == b
      && var r2 := UpdateCoinList(r1.kept, player, bob);
         |r2.taken| > 0 && r2.taken[0] == Bob(b, bob)
  {
    assert ([a, b] + rest)[2..] == rest;
    assert ([a, b] + rest)[1] == b;
  }

  /** When the player touches no coin, no coin is taken and every coin is
      animated in place. */
  lemma {:induction false} NoTouchAnimatesAll(cs: seq<Coin>, player: Rect, bob: real -> real)
    requires forall i :: 0 <= i < |cs| ==> !Overlaps(player, CoinBox(Bob(cs[i], bob)))
    ensures CoinWalk(cs, player, bob).taken == []
    ensures var k := CoinWalk(cs, player, bob).kept;
      |k| == |cs| && forall i :: 0 <= i < |cs| ==> k[i] == Bob(cs[i], bob)
    decreases |cs|
  {
    if |cs| > 0 {
      NoTouchAnimatesAll(cs[1..], player, bob);
    }
  }

  /** Centre of a coin, where its collection burst spawns. */
  function CentreOf(c: Coin): (r: (real, real))
    ensures r.0 - c.x == c.x + c.width - r.0 && r.1 - c.y == c.y + c.height - r.1
  {
    (c.x + c.width / 2.0, c.y + c.height / 2.0)
  }
}

=== FILE: enemies.dfy ===
/** Enemy records and the per-enemy patrol step: move by the fixed
    horizontal velocity, and bounce back (undoing the move and reversing)
    when the move leaves the enemy's platform; purple enemies can also
    stand still for 60 frames. */
module Enemies {
  import opened Geometry

  datatype EnemyKind = Red | Purple | Pink

  /** `home` is the index of the enemy's platform, when the level names one;
      `pauseTimer` only ever changes for purple enemies and starts at 0. */
  datatype Enemy = Enemy(
    x: real, y: real, width: real, height: real,
    velX: real,
    kind: EnemyKind,
    home: Option<int>,
    pauseTimer: int)

  const PauseFrames: int := 60
  /** A purple enemy starts a pause when its random draw is below this. */
  const PauseChance: real := 0.01

  function EnemyBox(e: Enemy): Rect
  {
    Rect(e.x, e.y, e.width, e.height)
  }

  /** The enemy names a platform that exists. */
  predicate HasHome(e: Enemy, platforms: seq<Rect>)
  {
    e.home.Some? && 0 <= e.home.value < |platforms|
  }

  /** The patrol band on a home platform: 5 units in from the left edge and
      35 in from the right edge. */
  function BandLeft(p: Rect): real
  {
    p.x + 5.0
  }

  function BandRight(p: Rect): real
  {
    p.x + p.width - 35.0
  }

  predicate InBand(x: real, p: Rect)
  {
    BandLeft(p) <= x <= BandRight(p)
  }

  /** Without a home platform, a platform supports the enemy at `x` when
      the enemy's feet are within 5 units above to 10 units below the
      platform's top and bottom edges and the two overlap horizontally. */
  predicate Supports(e: Enemy, x: real, p: Rect)
  {
    && e.y + e.height >= p.y - 5.0
    && e.y + e.height <= p.y + p.height + 10.0
    && x + e.width > p.x
    && x < p.x + p.width
  }

  /** The last platform, in list order, that supports the enemy at `x`. */
  function LastSupport(e: Enemy, x: real, platforms: seq<Rect>): (r: Option<nat>)
    ensures r.None? <==> forall i :: 0 <= i < |platforms| ==> !Supports(e, x, platforms[i])
    ensures r.Some? ==>
              && r.value < |platforms|
              && Supports(e, x, platforms[r.value])
              && forall j :: r.value < j < |platforms| ==> !Supports(e, x, platforms[j])
    decreases |platforms|
  {
    if |platforms| == 0 then None
    else if Supports(e, x, platforms[|platforms| - 1]) then Some(|platforms| - 1)
    else LastSupport(e, x, platforms[..|platforms| - 1])
  }

  /** Whether an enemy that moved to `x` must undo the move and turn: it
      turns unless `x` lies strictly inside the allowed band of its home
      platform or, without one, strictly inside the last platform supporting
      it; an enemy nothing supports always turns. */
  function MustTurn(e: Enemy, x: real, platforms: seq<Rect>): (b: bool)
    ensures HasHome(e, platforms) ==>
              (b <==> !(BandLeft(platforms[e.home.value]) < x < BandRight(platforms[e.home.value])))
    ensures !HasHome(e, platforms) ==>
              (!b <==> exists i :: 0 <= i < |platforms| && Supports(e, x, platforms[i])
                                   && (forall j :: i < j < |platforms| ==> !Supports(e, x, platforms[j]))
                                   && platforms[i].x < x < platforms[i].x + platforms[i].width - e.width)
  {
    if HasHome(e, platforms) then
      var p := platforms[e.home.value];
      var onPlatform := BandLeft(p) <= x <= BandRight(p);
      !onPlatform || x <= BandLeft(p) || x >= BandRight(p)
    else
      match LastSupport(e, x, platforms)
      case None => true
      case Some(i) => x <= platforms[i].x || x >= platforms[i].x + platforms[i].width - e.width
  }

  /** One frame of one enemy. `startPause` is the outcome of the purple
      enemy's random draw (whether it fell below 1%); other kinds ignore it. */
  function Patrol(e: Enemy, platforms: seq<Rect>, startPause: bool): (r: Enemy)
    ensures r.y == e.y && r.width == e.width && r.height == e.height
    ensures r.kind == e.kind && r.home == e.home
    ensures MustTurn(e, e.x + e.velX, platforms) ==> r.velX == -e.velX && r.x == e.x
    ensures !MustTurn(e, e.x + e.velX, platforms) ==> r.velX == e.velX
    ensures e.kind != Purple ==> r.pauseTimer == e.pauseTimer
    ensures e.kind != Purple && !MustTurn(e, e.x + e.velX, platforms) ==> r.x == e.x + e.velX
    ensures e.kind == Purple && (startPause || e.pauseTimer > 0) ==>
              r.x == e.x && r.pauseTimer == (if startPause then PauseFrames else e.pauseTimer) - 1
    ensures e.kind == Purple && !startPause && e.pauseTimer <= 0 ==>
              r.pauseTimer == e.pauseTimer
              && (!MustTurn(e, e.x + e.velX, platforms) ==> r.x == e.x + e.velX)
  {
    var oldX := e.x;
    var moved := e.x + e.velX;
    var e1 := if MustTurn(e, moved, platforms) then e.(velX := -e.velX, x := oldX) else e.(x := moved);
    if e.kind == Purple then
      var t := if startPause then PauseFrames else e1.pauseTimer;
      if t > 0 then e1.(pauseTimer := t - 1, x := oldX) else e1.(pauseTimer := t)
    else e1
  }

  /** The patrol invariant: an enemy whose home platform exists and whose x
      starts in the band stays in the band, whatever the pause draw. */
  lemma PatrolStaysInBand(e: Enemy, platforms: seq<Rect>, startPause: bool)
    requires HasHome(e, platforms) && InBand(e.x, platforms[e.home.value])
    ensures HasHome(Patrol(e, platforms, startPause), platforms)
    ensures InBand(Patrol(e, platforms, startPause).x, platforms[e.home.value])
  {
  }

  /** Speed is a property of the enemy: patrolling only ever flips its sign. */
  lemma PatrolKeepsSpeed(e: Enemy, platforms: seq<Rect>, startPause: bool)
    ensures var r := Patrol(e, platforms, startPause);
      r.velX == e.velX || r.velX == -e.velX
  {
  }

  /** An enemy that turns around at the edge of its band comes back into the
      band on the next frame (when not paused and the band is wider than
      one step). */
  lemma TurnThenMoveBack(e: Enemy, platforms: seq<Rect>)
    requires HasHome(e, platforms) && e.kind != Purple
    requires var p := platforms[e.home.value];
      BandLeft(p) < e.x < BandRight(p) && e.velX != 0.0
      && MustTurn(e, e.x + e.velX, platforms)
      && BandLeft(p) < e.x - e.velX < BandRight(p)
    ensures var r := Patrol(e, platforms, false);
      var r2 := Patrol(r, platforms, false);
      r2.x == e.x - e.velX && r2.velX == -e.velX
  {
  }
}

=== FILE: geometry.dfy ===
/** Axis-aligned rectangles, the overlap test and the directional
    platform-contact classifier used by every collision in the game. */
module Geometry {

  datatype Option<T> = None | Some(value: T)

  /** The canvas the game draws on; its size also sets the camera range and
      the depth at which a fall is fatal. */
  const ViewWidth: real := 1000.0
  const ViewHeight: real := 500.0

  /** An axis-aligned box: (x, y) is the top-left corner, y grows downwards. */
  datatype Rect = Rect(x: real, y: real, width: real, height: real)

  /** The strict overlap test: boxes that only share an edge do not overlap. */
  predicate Overlaps(a: Rect, b: Rect)
  {
    && a.x < b.x + b.width
    && a.x + a.width > b.x
    && a.y < b.y + b.height
    && a.y + a.height > b.y
  }

  lemma OverlapsSymmetric(a: Rect, b: Rect)
    ensures Overlaps(a, b) <==> Overlaps(b, a)
  {
  }

  /** Two boxes that touch along a vertical or a horizontal edge do not overlap. */
  lemma TouchingDoNotOverlap(a: Rect, b: Rect)
    requires a.x + a.width == b.x || b.x + b.width == a.x
          || a.y + a.height == b.y || b.y + b.height == a.y
    ensures !Overlaps(a, b) && !Overlaps(b, a)
  {
  }

  /** Which side of a platform a moving box hit, if any. */
  datatype Contact = NoContact | Top | Left | Right

  /** True when a box moving downwards started above the platform's top edge. */
  predicate LandsOn(mover: Rect, velY: real, platform: Rect)
  {
    velY > 0.0 && mover.y < platform.y
  }

  function CentreX(r: Rect): real
  {
    r.x + r.width / 2.0
  }

  /** The contact classifier: only overlapping boxes touch; a falling box
      that started above the top edge lands; otherwise the box's centre
      decides between the left and the right side, and a box whose
      centre lies over the platform reports nothing. */
  function PlatformContact(mover: Rect, velY: real, platform: Rect): (c: Contact)
    ensures !Overlaps(mover, platform) ==> c == NoContact
    ensures c == Top <==> Overlaps(mover, platform) && LandsOn(mover, velY, platform)
    ensures c == Left ==> Overlaps(mover, platform) && CentreX(mover) < platform.x
    ensures c == Right ==> Overlaps(mover, platform) && CentreX(mover) > platform.x + platform.width
    ensures c == NoContact && Overlaps(mover, platform) ==>
              !LandsOn(mover, velY, platform)
              && platform.x <= CentreX(mover) <= platform.x + platform.width
  {
    if !Overlaps(mover, platform) then NoContact
    else if LandsOn(mover, velY, platform) then Top
    else if CentreX(mover) < platform.x then Left
    else if CentreX(mover) > platform.x + platform.width then Right
    else NoContact
  }

  /** A side contact is only reported when the box does not land, and a
      box whose centre sits over a platform never reports a side contact. */
  lemma SideContactsExcludeLanding(mover: Rect, velY: real, platform: Rect)
    requires platform.width >= 0.0
    ensures PlatformContact(mover, velY, platform) in {Left, Right} ==>
              !LandsOn(mover, velY, platform)
    ensures platform.x <= CentreX(mover) <= platform.x + platform.width ==>
              PlatformContact(mover, velY, platform) !in {Left, Right}
  {
  }
}

=== FILE: levels.dfy ===
/** The static level catalogue: three hand-authored levels, each a list of
    platforms, enemies on home platforms, coins and a goal flag. */
module Levels {
  import opened Geometry
  import opened Enemies
  import opened Coins

  datatype Level = Level(platforms: seq<Rect>, enemies: seq<Enemy>, coins: seq<Coin>, goal: Rect)

  const LevelCount: int := 3

  function P(x: real, y: real, w: real, h: real): Rect
  {
    Rect(x, y, w, h)
  }

  /** An enemy as the table lists it: 30 x 30, on platform `home`. */
  function E(x: real, y: real, velX: real, kind: EnemyKind, home: int): Enemy
  {
    Enemy(x, y, 30.0, 30.0, velX, kind, Some(home), 0)
  }

  /** A 20 x 20 coin as the table lists it. */
  function C(x: real, y: real): Coin
  {
    Coin(x, y, 20.0, 20.0, 0.0)
  }

  const Level1: Level := Level(
    [P(0.0, 450.0, 300.0, 50.0), P(400.0, 400.0, 150.0, 20.0), P(650.0, 350.0, 150.0, 20.0),
     P(900.0, 300.0, 200.0, 20.0), P(1200.0, 250.0, 150.0, 20.0), P(1450.0, 450.0, 300.0, 50.0)],
    [E(450.0, 360.0, -1.0, Red, 1), E(950.0, 260.0, 1.0, Red, 3), E(1500.0, 410.0, -1.0, Red, 5)],
    [C(470.0, 360.0), C(700.0, 310.0), C(950.0, 220.0), C(1250.0, 210.0), C(1550.0, 410.0)],
    P(1600.0, 380.0, 40.0, 70.0))

  const Level2: Level := Level(
    [P(0.0, 450.0, 300.0, 50.0), P(400.0, 400.0, 150.0, 20.0), P(650.0, 330.0, 150.0, 20.0),
     P(900.0, 280.0, 150.0, 20.0), P(1150.0, 350.0, 150.0, 20.0), P(1400.0, 300.0, 150.0, 20.0),
     P(1650.0, 450.0, 300.0, 50.0)],
    [E(450.0, 360.0, -0.8, Purple, 1), E(950.0, 240.0, 0.8, Purple, 3),
     E(1200.0, 310.0, -0.8, Purple, 4), E(1750.0, 410.0, -0.8, Purple, 6)],
    [C(470.0, 360.0), C(700.0, 290.0), C(950.0, 240.0), C(1200.0, 310.0), C(1450.0, 260.0), C(1800.0, 410.0)],
    P(1850.0, 380.0, 40.0, 70.0))

  const Level3: Level := Level(
    [P(0.0, 450.0, 250.0, 50.0), P(350.0, 380.0, 120.0, 20.0), P(550.0, 320.0, 120.0, 20.0),
     P(750.0, 250.0, 120.0, 20.0), P(950.0, 180.0, 120.0, 20.0), P(1150.0, 250.0, 120.0, 20.0),
     P(1350.0, 320.0, 120.0, 20.0), P(1550.0, 380.0, 120.0, 20.0), P(1750.0, 300.0, 120.0, 20.0),
     P(1950.0, 450.0, 300.0, 50.0)],
    [E(380.0, 340.0, -1.2, Pink, 1), E(580.0, 280.0, 1.2, Pink, 2), E(980.0, 140.0, -1.2, Pink, 4),
     E(1180.0, 210.0, 1.2, Pink, 5), E(1580.0, 340.0, -1.2, Pink, 7), E(2050.0, 410.0, -1.2, Pink, 9)],
    [C(400.0, 340.0), C(600.0, 280.0), C(800.0, 210.0), C(1000.0, 140.0), C(1200.0, 210.0),
     C(1400.0, 280.0), C(1600.0, 340.0), C(1800.0, 260.0)],
    P(2100.0, 380.0, 40.0, 70.0))

  /** The catalogue lookup; numbers outside 1..3 have no level. */
  function LevelData(n: int): (r: Option<Level>)
    ensures r.Some? <==> 1 <= n <= LevelCount
  {
    if n == 1 then Some(Level1)
    else if n == 2 then Some(Level2)
    else if n == 3 then Some(Level3)
    else None
  }

  /** Every enemy of a level names an existing home platform, starts inside
      that platform's patrol band, and is not paused. */
  predicate EnemiesPlaced(enemies: seq<Enemy>, platforms: seq<Rect>)
  {
    forall i :: 0 <= i < |enemies| ==>
      HasHome(enemies[i], platforms) && InBand(enemies[i].x, platforms[enemies[i].home.value])
  }

  lemma LevelTableWellFormed(n: int)
    requires 1 <= n <= LevelCount
    ensures EnemiesPlaced(LevelData(n).value.enemies, LevelData(n).value.platforms)
    ensures forall i :: 0 <= i < |LevelData(n).value.enemies| ==> LevelData(n).value.enemies[i].pauseTimer == 0
  {
  }

  /** The rightmost platform edge, starting from 0. */
  function MaxRight(platforms: seq<Rect>): (m: real)
    ensures m >= 0.0
    ensures forall i :: 0 <= i < |platforms| ==> platforms[i].x + platforms[i].width <= m
    ensures m == 0.0 || exists i :: 0 <= i < |platforms| && m == platforms[i].x + platforms[i].width
    decreases |platforms|
  {
    if |platforms| == 0 then 0.0
    else
      var rest := MaxRight(platforms[..|platforms| - 1]);
      var last := platforms[|platforms| - 1];
      var r := last.x + last.width;
      if rest >= r then rest else r
  }

  /** The width of the current level for camera bounds: the further of the
      rightmost platform edge and 200 units past the goal; the view width
      when the level number has no level. */
  function LevelWidth(levelNum: int, goal: Rect): (w: real)
    ensures LevelData(levelNum).None? ==> w == ViewWidth
    ensures LevelData(levelNum).Some? ==>
              var ps := LevelData(levelNum).value.platforms;
              && w >= 0.0
              && w >= goal.x + goal.width + 200.0
              && (forall i :: 0 <= i < |ps| ==> ps[i].x + ps[i].width <= w)
              && (w == 0.0 || w == goal.x + goal.width + 200.0
                  || exists i :: 0 <= i < |ps| && w == ps[i].x + ps[i].width)
  {
    match LevelData(levelNum)
    case None => ViewWidth
    case Some(level) =>
      var m := MaxRight(level.platforms);
      var g := goal.x + goal.width + 200.0;
      if m >= g then m else g
  }

  /** The widths the camera sees on each level with its own goal. */
  lemma LevelWidths()
    ensures LevelWidth(1, Level1.goal) == 1840.0
    ensures LevelWidth(2, Level2.goal) == 2090.0
    ensures LevelWidth(3, Level3.goal) == 2340.0
  {
    RightEdges();
  }

  /** The rightmost platform edges: on every level the last platform reaches furthest. */
  lemma RightEdges()
    ensures MaxRight(Level1.platforms) == 1750.0
    ensures MaxRight(Level2.platforms) == 1950.0
    ensures MaxRight(Level3.platforms) == 2250.0
  {
    LastReachesFurthest(Level1.platforms);
    LastReachesFurthest(Level2.platforms);
    LastReachesFurthest(Level3.platforms);
  }

  /** When no platform reaches past the last one, the last one's right edge is the maximum. */
  lemma LastReachesFurthest(ps: seq<Rect>)
    requires |ps| > 0 && ps[|ps| - 1].x + ps[|ps| - 1].width > 0.0
    requires forall i :: 0 <= i < |ps| ==> ps[i].x + ps[i].width <= ps[|ps| - 1].x + ps[|ps| - 1].width
    ensures MaxRight(ps) == ps[|ps| - 1].x + ps[|ps| - 1].width
  {
  }
}

=== FILE: particles.dfy ===
/** The random source and the particle system: bursts are appended by
    collection and death events, and every frame each particle moves,
    ages by one frame and is dropped once its life runs out. */
module Particles {

  /** The stream of values `Math.random()` returns, and how many of them
      have been consumed so far. */
  datatype Rng = Rng(draw: nat -> real, pos: nat)

  /** A stream whose every value lies in [0, 1), as `Math.random` promises. */
  ghost predicate Uniform(g: Rng)
  {
    forall i: nat :: 0.0 <= g.draw(i) < 1.0
  }

  /** The next random value, and the stream advanced past it. */
  function Next(g: Rng): (r: (real, Rng))
    ensures r.0 == g.draw(g.pos)
    ensures r.1.draw == g.draw && r.1.pos == g.pos + 1
  {
    (g.draw(g.pos), g.(pos := g.pos + 1))
  }

  datatype ParticleKind = CoinSpark | Hit

  datatype Particle = Particle(
    x: real, y: real,
    velX: real, velY: real,
    life: real, maxLife: real,
    kind: ParticleKind,
    size: real,
    rotation: real, rotationSpeed: real)

  /** The double value of `Math.PI * 2`. */
  const TwoPi: real := 6.283185307179586

  const ParticleGravity: real := 0.4
  const ParticleDrag: real := 0.98

  /** One particle of a burst at (x, y), built from nine consecutive draws
      taken in the order the fields are initialised. */
  function Spawn(x: real, y: real, kind: ParticleKind, g: Rng): (r: (Particle, Rng))
    ensures r.1.draw == g.draw && r.1.pos == g.pos + 9
    ensures r.0.kind == kind
    ensures Uniform(g) ==>
              && x - 5.0 <= r.0.x < x + 5.0 && y - 5.0 <= r.0.y < y + 5.0
              && 30.0 <= r.0.life < 50.0 && 30.0 <= r.0.maxLife < 50.0
              && -12.0 < r.0.velY <= -2.0
              && 2.0 <= r.0.size < 8.0
  {
    var d := i requires 0 <= i < 9 => g.draw(g.pos + i);
    (Particle(
       x + (d(0) - 0.5) * 10.0,
       y + (d(1) - 0.5) * 10.0,
       (d(2) - 0.5) * 12.0,
       d(3) * -10.0 - 2.0,
       30.0 + d(4) * 20.0,
       30.0 + d(5) * 20.0,
       kind,
       d(6) * 6.0 + 2.0,
       d(7) * TwoPi,
       (d(8) - 0.5) * 0.3),
     g.(pos := g.pos + 9))
  }

  /** `count` particles of one kind spawned at (x, y). */
  function CreateParticles(x: real, y: real, kind: ParticleKind, count: nat, g: Rng): (r: (seq<Particle>, Rng))
    ensures |r.0| == count
    ensures r.1.draw == g.draw && r.1.pos == g.pos + 9 * count
    ensures forall i :: 0 <= i < |r.0| ==> r.0[i].kind == kind
    ensures Uniform(g) ==> forall i :: 0 <= i < |r.0| ==> 30.0 <= r.0[i].life < 50.0
    decreases count
  {
    if count == 0 then ([], g)
    else
      var (p, g1) := Spawn(x, y, kind, g);
      var (rest, g2) := CreateParticles(x, y, kind, count - 1, g1);
      assert Uniform(g) ==> Uniform(g1);
      ([p] + rest, g2)
  }

  /** A burst appended to the live particles: the old ones are kept, in
      order, and exactly `count` new ones of the requested kind follow. */
  function AddBurst(ps: seq<Particle>, x: real, y: real, kind: ParticleKind, count: nat, g: Rng): (r: (seq<Particle>, Rng))
    ensures |r.0| == |ps| + count
    ensures r.0[..|ps|] == ps
    ensures forall i :: |ps| <= i < |r.0| ==> r.0[i].kind == kind
    ensures r.1.draw == g.draw && r.1.pos == g.pos + 9 * count
  {
    var (burst, g1) := CreateParticles(x, y, kind, count, g);
    (ps + burst, g1)
  }

  /** One frame of motion for one particle: move by the old velocity, then
      apply gravity and drag, spin, and lose one frame of life. */
  function Advance(p: Particle): (q: Particle)
    ensures q.life == p.life - 1.0
    ensures q.maxLife == p.maxLife && q.kind == p.kind && q.size == p.size
    ensures q.x == p.x + p.velX && q.y == p.y + p.velY
    ensures q.velY == p.velY + ParticleGravity && q.velX == p.velX * ParticleDrag
    ensures q.rotation == p.rotation + p.rotationSpeed && q.rotationSpeed == p.rotationSpeed
  {
    p.(x := p.x + p.velX,
       y := p.y + p.velY,
       velY := p.velY + ParticleGravity,
       velX := p.velX * ParticleDrag,
       rotation := p.rotation + p.rotationSpeed,
       life := p.life - 1.0)
  }

  /** The per-frame particle update: advance every particle and keep, in
      order, the ones whose life is still positive. */
  function UpdateParticles(ps: seq<Particle>): (r: seq<Particle>)
    ensures |r| <= |ps|
    ensures forall i :: 0 <= i < |r| ==> r[i].life > 0.0
  {
    if |ps| == 0 then []
    else
      var q := Advance(ps[0]);
      (if q.life > 0.0 then [q] else []) + UpdateParticles(ps[1..])
  }

  lemma {:induction false} UpdateParticlesAppend(a: seq<Particle>, b: seq<Particle>)
    ensures UpdateParticles(a + b) == UpdateParticles(a) + UpdateParticles(b)
    decreases |a|
  {
    if |a| == 0 {
      assert a + b == b;
    } else {
      assert (a + b)[1..] == a[1..] + b;
      UpdateParticlesAppend(a[1..], b);
    }
  }

  /** `n` applications of `Advance`. */
  function Aged(p: Particle, n: nat): Particle
  {
    if n == 0 then p else Advance(Aged(p, n - 1))
  }

  lemma {:induction false} AgedKeepsIdentity(p: Particle, n: nat)
    ensures Aged(p, n).life == p.life - n as real
    ensures Aged(p, n).maxLife == p.maxLife && Aged(p, n).kind == p.kind
  {
    if n > 0 {
      AgedKeepsIdentity(p, n - 1);
    }
  }

  /** The particles of `ps` still alive after `n` frames, aged by `n`
      frames, in their original order. */
  function Survivors(ps: seq<Particle>, n: nat): seq<Particle>
  {
    if |ps| == 0 then []
    else (if ps[0].life - n as real > 0.0 then [Aged(ps[0], n)] else []) + Survivors(ps[1..], n)
  }

  /** `n` frames of particle updates. */
  function UpdateParticlesN(ps: seq<Particle>, n: nat): seq<Particle>
  {
    if n == 0 then ps else UpdateParticles(UpdateParticlesN(ps, n - 1))
  }

  /** The filter of one update, applied to the survivors of n frames,
      gives the survivors of n + 1 frames. */
  lemma {:induction false} UpdateSurvivors(ps: seq<Particle>, n: nat)
    ensures UpdateParticles(Survivors(ps, n)) == Survivors(ps, n + 1)
    decreases |ps|
  {
    if |ps| > 0 {
      var head := if ps[0].life - n as real > 0.0 then [Aged(ps[0], n)] else [];
      UpdateParticlesAppend(head, Survivors(ps[1..], n));
      UpdateSurvivors(ps[1..], n);
      AgedKeepsIdentity(ps[0], n);
      AgedKeepsIdentity(ps[0], n + 1);
      if ps[0].life - n as real > 0.0 {
        assert head[1..] == [];
      }
    }
  }

  /** One update is the survivors of one frame. */
  lemma {:induction false} UpdateIsSurvivorsOfOne(ps: seq<Particle>)
    ensures UpdateParticles(ps) == Survivors(ps, 1)
    decreases |ps|
  {
    if |ps| > 0 {
      assert Aged(ps[0], 1) == Advance(ps[0]);
      UpdateIsSurvivorsOfOne(ps[1..]);
    }
  }

  /** The particle lifecycle: after `n` >= 1 frames exactly the particles
      whose initial life exceeds `n` remain, in order, each aged by `n`
      frames. */
  lemma {:induction false} UpdateParticlesNIsSurvivors(ps: seq<Particle>, n: nat)
    requires n >= 1
    ensures UpdateParticlesN(ps, n) == Survivors(ps, n)
  {
    if n == 1 {
      UpdateIsSurvivorsOfOne(ps);
    } else {
      UpdateParticlesNIsSurvivors(ps, n - 1);
      UpdateSurvivors(ps, n - 1);
    }
  }

  /** A particle with whole-number life L is still present after L - 1
      updates and is gone on the L-th, together with its maximum life
      and kind intact while it lives. */
  lemma ParticleLivesExactlyLifeFrames(p: Particle, L: nat)
    requires L >= 1 && p.life == L as real
    ensures |UpdateParticlesN([p], L - 1)| == 1
    ensures UpdateParticlesN([p], L - 1)[0].life == 1.0
    ensures UpdateParticlesN([p], L - 1)[0].maxLife == p.maxLife
    ensures UpdateParticlesN([p], L - 1)[0].kind == p.kind
    ensures UpdateParticlesN([p], L) == []
  {
    if L > 1 {
      UpdateParticlesNIsSurvivors([p], L - 1);
    }
    UpdateParticlesNIsSurvivors([p], L);
    AgedKeepsIdentity(p, L - 1);
    assert [p][1..] == [];
  }
}

=== FILE: physics.dfy ===
/** The player record and the pure stages of one physics step:
    invulnerability countdown, steering, jump and coyote time, gravity,
    integration, animation, platform resolution and the left-wall clamp. */
module Physics {
  import opened Geometry

  datatype AnimState = Idle | Run | Jump

  datatype Player = Player(
    x: real, y: real,
    velX: real, velY: real,
    grounded: bool,
    coyote: int,
    anim: AnimState,
    animFrame: int,
    animTimer: int,
    direction: int,
    invulnerable: bool,
    invTimer: int)

  /** The keys read as held state each frame. */
  datatype Keys = Keys(left: bool, right: bool, jump: bool)

  const Width: real := 62.0
  const Height: real := 70.0
  const MaxSpeed: real := 5.0
  const JumpPower: real := 15.0
  const Acceleration: real := 0.8
  const Friction: real := 0.85
  const SnapBelow: real := 0.1
  const Gravity: real := 0.8
  const TerminalVelocity: real := 16.0
  const CoyoteFrames: int := 8
  const InvulnerableFrames: int := 120

  /** The player as it stands at page load; `coyoteTime` is absent from
      that object, which reads as 0 in every comparison it takes part in. */
  const InitialPlayer: Player := Player(50.0, 350.0, 0.0, 0.0, false, 0, Idle, 0, 0, 1, false, 0)

  function Box(p: Player): Rect
  {
    Rect(p.x, p.y, Width, Height)
  }

  function Abs(v: real): real
  {
    if v < 0.0 then -v else v
  }

  // ---------------------------------------------------------------------
  // Invulnerability

  /** One frame of the invulnerability countdown: only an invulnerable
      player counts down, and the flag drops once the timer reaches 0. */
  function TickInvulnerability(p: Player): (q: Player)
    ensures !p.invulnerable ==> q == p
    ensures p.invulnerable ==> q.invTimer == p.invTimer - 1
    ensures p.invulnerable ==> (q.invulnerable <==> p.invTimer > 1)
    ensures q.(invulnerable := p.invulnerable, invTimer := p.invTimer) == p
  {
    if !p.invulnerable then p
    else
      var t := p.invTimer - 1;
      p.(invTimer := t, invulnerable := !(t <= 0))
  }

  function TickInvulnerabilityN(p: Player, n: nat): Player
  {
    if n == 0 then p else TickInvulnerability(TickInvulnerabilityN(p, n - 1))
  }

  /** A window opened with timer T stays open for T - 1 ticks and closes on
      exactly the T-th tick. */
  lemma {:induction false} InvulnerabilityWindow(p: Player, n: nat)
    requires p.invulnerable && p.invTimer >= 1
    ensures n < p.invTimer ==>
              TickInvulnerabilityN(p, n).invulnerable && TickInvulnerabilityN(p, n).invTimer == p.invTimer - n
    ensures n == p.invTimer ==> !TickInvulnerabilityN(p, n).invulnerable
  {
    if n > 0 {
      InvulnerabilityWindow(p, n - 1);
    }
  }

  /** The window granted after a death clears on exactly the 120th tick. */
  lemma InvulnerabilityClearsOn120th(p: Player)
    requires p.invulnerable && p.invTimer == InvulnerableFrames
    ensures TickInvulnerabilityN(p, 119).invulnerable
    ensures !TickInvulnerabilityN(p, 120).invulnerable
  {
    InvulnerabilityWindow(p, 119);
    InvulnerabilityWindow(p, 120);
  }

  // ---------------------------------------------------------------------
  // Horizontal movement

  /** Friction with no key held: scale by 0.85, and snap to exactly 0 once
      the scaled speed falls below 0.1. */
  function Coast(v: real): (r: real)
    ensures r == 0.0 || r == Friction * v
    ensures r == 0.0 <==> Abs(Friction * v) < SnapBelow
    ensures Abs(r) <= Friction * Abs(v)
  {
    var f := v * Friction;
    if Abs(f) < SnapBelow then 0.0 else f
  }

  /** The horizontal input step; left wins over right. A held key moves
      the velocity its way by the full acceleration, stopping at the speed
      limit; with no key held friction applies, which never speeds up.
      Either way a velocity within the limit stays within it. */
  function Steer(v: real, keys: Keys): (r: real)
    ensures Abs(v) <= MaxSpeed ==> Abs(r) <= MaxSpeed
    ensures keys.left ==>
              && -MaxSpeed <= r && v - Acceleration <= r
              && (r == v - Acceleration || r == -MaxSpeed)
              && (v > -MaxSpeed ==> r < v)
    ensures !keys.left && keys.right ==>
              && r <= MaxSpeed && r <= v + Acceleration
              && (r == v + Acceleration || r == MaxSpeed)
              && (v < MaxSpeed ==> r > v)
    ensures !keys.left && !keys.right ==> r == Coast(v) && Abs(r) <= Abs(v)
  {
    if keys.left then
      var a := v - Acceleration;
      if a > -MaxSpeed then a else -MaxSpeed
    else if keys.right then
      var a := v + Acceleration;
      if a < MaxSpeed then a else MaxSpeed
    else Coast(v)
  }

  function CoastN(v: real, n: nat): real
  {
    if n == 0 then v else Coast(CoastN(v, n - 1))
  }

  /** The bound `b` after `n` frames of friction: b * 0.85^n. */
  function Decay(b: real, n: nat): real
  {
    if n == 0 then b else Friction * Decay(b, n - 1)
  }

  /** Idle frames shrink velocity at least geometrically. */
  lemma {:induction false} CoastNBound(v: real, n: nat)
    ensures Abs(CoastN(v, n)) <= Decay(Abs(v), n)
  {
    if n > 0 {
      CoastNBound(v, n - 1);
    }
  }

  lemma {:induction false} DecayCompose(b: real, m: nat, n: nat)
    ensures Decay(b, m + n) == Decay(Decay(b, m), n)
  {
    if n > 0 {
      DecayCompose(b, m, n - 1);
    }
  }

  lemma DecayFour(b: real)
    ensures Decay(b, 4) == 0.52200625 * b
  {
    assert Decay(b, 1) == Friction * b;
    assert Decay(b, 2) == Friction * Decay(b, 1);
    assert Decay(b, 3) == Friction * Decay(b, 2);
    assert Decay(b, 4) == Friction * Decay(b, 3);
  }

  /** Once at rest, coasting stays at rest. */
  lemma {:induction false} CoastNFromRest(k: nat)
    ensures CoastN(0.0, k) == 0.0
  {
    if k > 0 {
      CoastNFromRest(k - 1);
    }
  }

  /** With no key held, any speed within the limit decays to exactly 0
      within 25 frames: after 24 frames at most 5 * 0.85^24 (about 0.1015)
      is left, and the next friction step falls below the 0.1 threshold. */
  lemma FrictionStopsWithin25Frames(v: real)
    requires Abs(v) <= MaxSpeed
    ensures CoastN(v, 25) == 0.0
  {
    var b := Abs(v);
    CoastNBound(v, 24);
    DecayFour(b);
    DecayCompose(b, 4, 4);
    DecayFour(Decay(b, 4));
    DecayCompose(b, 8, 4);
    DecayFour(Decay(b, 8));
    DecayCompose(b, 12, 4);
    DecayFour(Decay(b, 12));
    DecayCompose(b, 16, 4);
    DecayFour(Decay(b, 16));
    DecayCompose(b, 20, 4);
    DecayFour(Decay(b, 20));
    assert Abs(CoastN(v, 24)) < 0.1015;
  }

  /** From full speed with no key held, friction gives 5, 4.25, 3.6125, ... */
  lemma FrictionFromFullSpeed()
    ensures CoastN(5.0, 1) == 4.25 && CoastN(5.0, 2) == 3.6125
  {
  }

  // ---------------------------------------------------------------------
  // Jump and coyote time

  /** A jump is accepted while the key is held and the player is grounded
      (as the previous frame's resolution left it) or within coyote time. */
  predicate CanJump(p: Player, keys: Keys)
  {
    keys.jump && (p.grounded || p.coyote > 0)
  }

  /** The jump test followed by the coyote-timer update. */
  function JumpAndCoyote(p: Player, keys: Keys): (q: Player)
    ensures CanJump(p, keys) ==> q.velY == -JumpPower && !q.grounded && q.coyote == 0
    ensures !CanJump(p, keys) ==> q.velY == p.velY && q.grounded == p.grounded
    ensures !CanJump(p, keys) && p.grounded ==> q.coyote == CoyoteFrames
    ensures !CanJump(p, keys) && !p.grounded ==> q.coyote == (if p.coyote > 0 then p.coyote - 1 else p.coyote)
    ensures q.(velY := p.velY, grounded := p.grounded, coyote := p.coyote) == p
  {
    var j := if CanJump(p, keys) then p.(velY := -JumpPower, grounded := false, coyote := 0) else p;
    if j.grounded then j.(coyote := CoyoteFrames)
    else if j.coyote > 0 then j.(coyote := j.coyote - 1)
    else j
  }

  function AirborneFrames(p: Player, n: nat): Player
  {
    if n == 0 then p else JumpAndCoyote(AirborneFrames(p, n - 1), Keys(false, false, false))
  }

  /** Coyote time: after a grounded frame the timer is 8; each airborne
      frame without a jump takes one off, so a jump is still accepted on
      the first eight airborne frames and refused from the ninth on. */
  lemma {:induction false} CoyoteCountdown(p: Player, n: nat)
    requires !p.grounded && p.coyote == CoyoteFrames
    ensures !AirborneFrames(p, n).grounded
    ensures AirborneFrames(p, n).coyote == (if n < CoyoteFrames then CoyoteFrames - n else 0)
  {
    if n > 0 {
      CoyoteCountdown(p, n - 1);
    }
  }

  lemma CoyoteWindow(p: Player, n: nat, jump: Keys)
    requires !p.grounded && p.coyote == CoyoteFrames && jump.jump
    ensures CanJump(AirborneFrames(p, n), jump) <==> n < CoyoteFrames
  {
    CoyoteCountdown(p, n);
  }

  // ---------------------------------------------------------------------
  // Gravity, integration and animation

  function ApplyGravity(p: Player): (q: Player)
    ensures q.velY <= TerminalVelocity
    ensures q.velY == p.velY + Gravity || (q.velY == TerminalVelocity && p.velY + Gravity > TerminalVelocity)
    ensures q.(velY := p.velY) == p
  {
    var v := p.velY + Gravity;
    p.(velY := if v > TerminalVelocity then TerminalVelocity else v)
  }

  function Integrate(p: Player): (q: Player)
    ensures q.x - p.x == p.velX && q.y - p.y == p.velY
    ensures q.(x := p.x, y := p.y) == p
  {
    p.(x := p.x + p.velX, y := p.y + p.velY)
  }

  /** Integration is undone by integrating again with the velocity reversed. */
  lemma IntegrateReversible(p: Player)
    ensures var q := Integrate(p);
      Integrate(q.(velX := -p.velX, velY := -p.velY)).(velX := p.velX, velY := p.velY) == p
  {
  }

  /** The animation state machine: recomputed each frame from the physics
      state; the frame counter cycles over 4 frames when running (every 6th
      tick) and 2 when idle (every 40th tick); facing is sticky. */
  function Animate(p: Player): (q: Player)
    ensures q.animTimer == p.animTimer + 1
    ensures !p.grounded ==> q.anim == Jump && q.animFrame == (if p.velY < 0.0 then 0 else 1)
    ensures p.grounded ==> (q.anim == Run <==> Abs(p.velX) > 0.5)
    ensures p.grounded ==> q.anim != Jump
    ensures q.direction != p.direction ==> Abs(p.velX) > 0.5
    ensures p.velX > 0.5 ==> q.direction == 1
    ensures p.velX < -0.5 ==> q.direction == -1
    ensures 0 <= p.animFrame <= 3 ==> 0 <= q.animFrame <= 3
    ensures p.grounded && q.animFrame != p.animFrame ==> q.animTimer % (if q.anim == Run then 6 else 40) == 0
    ensures p.grounded && q.anim == Run && q.animTimer % 6 == 0 ==> q.animFrame == (p.animFrame + 1) % 4
    ensures p.grounded && q.anim == Idle && q.animTimer % 40 == 0 ==> q.animFrame == (p.animFrame + 1) % 2
    ensures q.(anim := p.anim, animFrame := p.animFrame, animTimer := p.animTimer, direction := p.direction) == p
  {
    var t := p.animTimer + 1;
    var (st, fr) :=
      if p.grounded then
        if Abs(p.velX) > 0.5 then
          (Run, if t % 6 == 0 then (p.animFrame + 1) % 4 else p.animFrame)
        else
          (Idle, if t % 40 == 0 then (p.animFrame + 1) % 2 else p.animFrame)
      else
        (Jump, if p.velY < 0.0 then 0 else 1);
    var dir := if p.velX > 0.5 then 1 else if p.velX < -0.5 then -1 else p.direction;
    p.(animTimer := t, anim := st, animFrame := fr, direction := dir)
  }

  // ---------------------------------------------------------------------
  // Platform resolution

  /** The response to one platform: landing snaps the feet onto the top
      edge; a side contact pushes the player out only when moving into
      that side. */
  function ResolveOne(p: Player, platform: Rect): (q: Player)
    ensures PlatformContact(Box(p), p.velY, platform) == Top ==>
              q.y + Height == platform.y && q.velY == 0.0 && q.grounded
              && q.x == p.x && q.velX == p.velX
    ensures PlatformContact(Box(p), p.velY, platform) == Left && p.velX > 0.0 ==>
              q.x + Width == platform.x && q.velX == 0.0
              && q.y == p.y && q.velY == p.velY && q.grounded == p.grounded
    ensures PlatformContact(Box(p), p.velY, platform) == Right && p.velX < 0.0 ==>
              q.x == platform.x + platform.width && q.velX == 0.0
              && q.y == p.y && q.velY == p.velY && q.grounded == p.grounded
    ensures PlatformContact(Box(p), p.velY, platform) == NoContact ==> q == p
    ensures PlatformContact(Box(p), p.velY, platform) == Left && p.velX <= 0.0 ==> q == p
    ensures PlatformContact(Box(p), p.velY, platform) == Right && p.velX >= 0.0 ==> q == p
    ensures q.(x := p.x, y := p.y, velX := p.velX, velY := p.velY, grounded := p.grounded) == p
  {
    match PlatformContact(Box(p), p.velY, platform)
    case Top => p.(y := platform.y - Height, velY := 0.0, grounded := true)
    case Left => if p.velX > 0.0 then p.(x := platform.x - Width, velX := 0.0) else p
    case Right => if p.velX < 0.0 then p.(x := platform.x + platform.width, velX := 0.0) else p
    case NoContact => p
  }

  /** A resolved contact separates the player from that platform. */
  lemma ResolveSeparates(p: Player, platform: Rect)
    requires PlatformContact(Box(p), p.velY, platform) == Top
          || (PlatformContact(Box(p), p.velY, platform) == Left && p.velX > 0.0)
          || (PlatformContact(Box(p), p.velY, platform) == Right && p.velX < 0.0)
    ensures !Overlaps(Box(ResolveOne(p, platform)), platform)
  {
    TouchingDoNotOverlap(Box(ResolveOne(p, platform)), platform);
  }

  /** Every platform in list order, each seeing the player as the previous
      ones left it, so the last contact wins on each axis. */
  function ResolveAll(p: Player, platforms: seq<Rect>): (q: Player)
    ensures q.velX == p.velX || q.velX == 0.0
    ensures q.velY == p.velY || q.velY == 0.0
    ensures q.(x := p.x, y := p.y, velX := p.velX, velY := p.velY, grounded := p.grounded) == p
    decreases |platforms|
  {
    if |platforms| == 0 then p
    else ResolveAll(ResolveOne(p, platforms[0]), platforms[1..])
  }

  /** The resolution stage: grounded is recomputed from scratch, so the
      player ends grounded only by landing on a platform of the list, and
      then rests on its top edge. */
  function ResolvePlatforms(p: Player, platforms: seq<Rect>): (q: Player)
    ensures q.velX == p.velX || q.velX == 0.0
    ensures q.velY == p.velY || q.velY == 0.0
    ensures q.grounded ==> q.velY == 0.0 && StandsOnSome(q, platforms)
    ensures q.(x := p.x, y := p.y, velX := p.velX, velY := p.velY, grounded := p.grounded) == p
  {
    ResolveAllFacts(p.(grounded := false), platforms, []);
    assert [] + platforms == platforms;
    ResolveAll(p.(grounded := false), platforms)
  }

  /** Standing on a platform: the feet are on the top edge of one of them. */
  ghost predicate StandsOnSome(p: Player, platforms: seq<Rect>)
  {
    exists i :: 0 <= i < |platforms| && p.y + Height == platforms[i].y
  }

  /** Resolution never speeds the player up, only zeroes velocities, and a
      grounded result is at rest vertically with its feet on the top edge
      of some platform of the list. */
  lemma {:induction false} ResolveAllFacts(p: Player, platforms: seq<Rect>, seen: seq<Rect>)
    requires p.grounded ==> p.velY == 0.0 && StandsOnSome(p, seen)
    ensures var q := ResolveAll(p, platforms);
      && (q.velX == p.velX || q.velX == 0.0)
      && (q.velY == p.velY || q.velY == 0.0)
      && (q.grounded ==> q.velY == 0.0 && StandsOnSome(q, seen + platforms))
      && q.(x := p.x, y := p.y, velX := p.velX, velY := p.velY, grounded := p.grounded) == p
    decreases |platforms|
  {
    if |platforms| > 0 {
      var p1 := ResolveOne(p, platforms[0]);
      if p1.grounded {
        if PlatformContact(Box(p), p.velY, platforms[0]) == Top {
          assert (seen + [platforms[0]])[|seen|] == platforms[0];
        } else {
          var i :| 0 <= i < |seen| && p.y + Height == seen[i].y;
          assert (seen + [platforms[0]])[i] == seen[i];
        }
      }
      ResolveAllFacts(p1, platforms[1..], seen + [platforms[0]]);
      assert seen + [platforms[0]] + platforms[1..] == seen + platforms;
    } else {
      assert seen + platforms == seen;
    }
  }

  /** With a single platform, landing on it leaves the feet on its top
      edge, at rest and grounded. */
  lemma LandingOnOnlyPlatform(p: Player, platform: Rect)
    requires PlatformContact(Box(p), p.velY, platform) == Top
    ensures var q := ResolvePlatforms(p, [platform]);
      q.y + Height == platform.y && q.velY == 0.0 && q.grounded
  {
    var p0 := p.(grounded := false);
    assert Box(p0) == Box(p) && p0.velY == p.velY;
    assert [platform][1..] == [];
    assert ResolveAll(ResolveOne(p0, platform), []) == ResolveOne(p0, platform);
    assert ResolvePlatforms(p, [platform]) == ResolveOne(p0, platform);
  }

  /** Resolution of a later platform overrides an earlier one: when the last
      platform is landed on, the outcome is that landing whatever came before. */
  lemma {:induction false} LastLandingWins(p: Player, platforms: seq<Rect>, last: Rect)
    requires PlatformContact(Box(ResolveAll(p, platforms)), ResolveAll(p, platforms).velY, last) == Top
    ensures var q := ResolveAll(p, platforms + [last]);
      q.y + Height == last.y && q.velY == 0.0 && q.grounded
    decreases |platforms|
  {
    if |platforms| == 0 {
      assert platforms + [last] == [last];
    } else {
      assert (platforms + [last])[1..] == platforms[1..] + [last];
      LastLandingWins(ResolveOne(p, platforms[0]), platforms[1..], last);
    }
  }

  // ---------------------------------------------------------------------
  // Left wall

  /** A player whose top edge is more than 100 units below the canvas dies. */
  const FallLimit: real := ViewHeight + 100.0

  function ClampLeft(p: Player): (q: Player)
    ensures q.x >= 0.0
    ensures p.x >= 0.0 ==> q == p
    ensures p.x < 0.0 ==> q.x == 0.0 && q.velX == 0.0
    ensures q.(x := p.x, velX := p.velX) == p
  {
    if p.x < 0.0 then p.(x := 0.0, velX := 0.0) else p
  }

  /** Every stage of one player step short of death handling and the camera,
      in the order the game applies them. Afterwards the player is right of
      the world's left edge, falls at most at terminal velocity, is grounded
      only when at rest on some platform's top edge, and has had one frame
      of invulnerability counted off. */
  function Move(p: Player, keys: Keys, platforms: seq<Rect>): (q: Player)
    ensures q.x >= 0.0
    ensures q.velY <= TerminalVelocity
    ensures q.grounded ==> q.velY == 0.0 && StandsOnSome(q, platforms)
    ensures q.invulnerable <==> p.invulnerable && p.invTimer > 1
    ensures q.invTimer == (if p.invulnerable then p.invTimer - 1 else p.invTimer)
  {
    var p1 := TickInvulnerability(p);
    var p2 := p1.(velX := Steer(p1.velX, keys));
    var p3 := JumpAndCoyote(p2, keys);
    var p4 := ApplyGravity(p3);
    var p5 := Integrate(p4);
    var p6 := Animate(p5);
    var p7 := ResolvePlatforms(p6, platforms);
    ClampLeft(p7)
  }

  /** The bounds one movement step keeps: speed within ±5, animation frame
      within 0..3 and a non-negative coyote timer. */
  ghost predicate InBounds(p: Player)
  {
    && Abs(p.velX) <= MaxSpeed
    && 0 <= p.animFrame <= 3
    && p.coyote >= 0
  }

  /** Every stage keeps its part of the bounds, so one movement step keeps them all. */
  lemma MoveKeepsBounds(p: Player, keys: Keys, platforms: seq<Rect>)
    requires InBounds(p)
    ensures InBounds(Move(p, keys, platforms))
  {
  }
}

=== FILE: session.dfy ===
/** The game session and the per-frame update: the player step (with fall
    death and the camera), the enemy pass (with enemy-contact death), the
    coin pass, the particle update and the goal check, plus death and
    lives, level loading and level progression. */
module Session {
  import opened Geometry
  import opened Particles
  import opened Physics
  import opened Enemies
  import opened Coins
  import opened Levels
  import opened ScreenShake

  /** Which end-of-play dialog the session has shown, if any. */
  datatype Modal = NoModal | LevelComplete(bonus: int) | GameOver | GameWon

  datatype Session = Session(
    score: int,
    lives: int,
    level: int,
    running: bool,
    camera: real,
    shake: real,
    modal: Modal,
    player: Player,
    platforms: seq<Rect>,
    enemies: seq<Enemy>,
    coins: seq<Coin>,
    particles: seq<Particle>,
    goal: Rect)

  datatype DeathCause = Fall | EnemyContact

  const StartLives: int := 3
  const CoinScore: int := 100
  const GoalBonusPerCoin: int := 50
  const CoinBurst: nat := 6

  /** The session as the page sets it up, before any game starts; the goal
      is an empty box until a level is loaded. */
  const PageLoad: Session := Session(0, StartLives, 1, false, 0.0, 0.0, NoModal, InitialPlayer, [], [], [], [], Rect(0.0, 0.0, 0.0, 0.0))

  // ---------------------------------------------------------------------
  // Death and lives

  /** The state part of putting the player back at the level start. */
  function ResetPlayer(p: Player): (q: Player)
    ensures q.x == 50.0 && q.y == 350.0 && q.velX == 0.0 && q.velY == 0.0
    ensures q.anim == Idle && q.coyote == 0
    ensures q.(x := p.x, y := p.y, velX := p.velX, velY := p.velY, anim := p.anim, coyote := p.coyote) == p
  {
    p.(x := 50.0, y := 350.0, velX := 0.0, velY := 0.0, anim := Idle, coyote := 0)
  }

  /** Death: ignored while invulnerable; otherwise one life is lost, the
      screen shakes (25 for a fall, 15 for an enemy) and a hit burst (20
      particles for a fall, 12 for an enemy) spawns at the player's centre;
      with no lives left the game stops with a stronger shake of 30, and
      otherwise the player is reset and invulnerable for 120 frames. */
  function HandleDeath(s: Session, cause: DeathCause, g: Rng): (r: (Session, Rng))
    ensures s.player.invulnerable ==> r.0 == s && r.1 == g
    ensures !s.player.invulnerable ==>
              var t := r.0;
              && t.lives == s.lives - 1
              && |t.particles| == |s.particles| + (if cause == Fall then 20 else 12)
              && t.particles[..|s.particles|] == s.particles
              && (forall i :: |s.particles| <= i < |t.particles| ==> t.particles[i].kind == Hit)
              && t.shake == (if t.lives <= 0 then GameOverShake else if cause == Fall then FallShake else EnemyShake)
              && (t.lives <= 0 ==> !t.running && t.modal == GameOver && t.player == s.player && t.camera == s.camera)
              && (t.lives > 0 ==>
                    && t.running == s.running && t.modal == s.modal
                    && t.player.x == 50.0 && t.player.y == 350.0
                    && t.player.velX == 0.0 && t.player.velY == 0.0
                    && t.player.invulnerable && t.player.invTimer == InvulnerableFrames
                    && t.camera == 0.0)
    ensures r.0.(lives := s.lives, particles := s.particles, running := s.running, modal := s.modal,
                 player := s.player, camera := s.camera, shake := s.shake) == s
    ensures r.1.draw == g.draw && r.1.pos >= g.pos
  {
    if s.player.invulnerable then (s, g)
    else
      var p := s.player;
      var count := if cause == Fall then 20 else 12;
      var (ps, g1) := AddBurst(s.particles, p.x + Width / 2.0, p.y + Height / 2.0, Hit, count, g);
      var s1 := s.(lives := s.lives - 1, particles := ps, shake := if cause == Fall then FallShake else EnemyShake);
      if s1.lives <= 0 then
        (s1.(running := false, modal := GameOver, shake := GameOverShake), g1)
      else
        (s1.(player := ResetPlayer(p).(invulnerable := true, invTimer := InvulnerableFrames), camera := 0.0), g1)
  }

  // ---------------------------------------------------------------------
  // Camera

  function MaxCamera(s: Session): (m: real)
    ensures m >= 0.0
  {
    var w := LevelWidth(s.level, s.goal) - ViewWidth;
    if w > 0.0 then w else 0.0
  }

  function Clamp(v: real, lo: real, hi: real): (r: real)
    requires lo <= hi
    ensures lo <= r <= hi
    ensures lo <= v <= hi ==> r == v
  {
    if v < lo then lo else if v > hi then hi else v
  }

  /** The smoothed follow: a tenth of the way toward the player's x less a
      third of the view, that target clamped to [0, maxCamera]. */
  function FollowCamera(camera: real, playerX: real, maxCamera: real): (c: real)
    requires maxCamera >= 0.0
    ensures var t := Clamp(playerX - ViewWidth / 3.0, 0.0, maxCamera);
      c - t == 0.9 * (camera - t)
    ensures 0.0 <= camera <= maxCamera ==> 0.0 <= c <= maxCamera
  {
    var target := playerX - ViewWidth / 3.0;
    var clamped := if target < maxCamera then target else maxCamera;
    var t := if clamped > 0.0 then clamped else 0.0;
    camera + (t - camera) * 0.1
  }

  // ---------------------------------------------------------------------
  // Player step

  /** The player's part of a frame: movement and resolution, the fall
      death below y = 600, then the camera. Nothing happens while the game
      is not running. */
  function UpdatePlayer(s: Session, keys: Keys, g: Rng): (r: (Session, Rng))
    ensures !s.running ==> r.0 == s && r.1 == g
    ensures r.0.score == s.score && r.0.level == s.level && r.0.goal == s.goal
    ensures r.0.platforms == s.platforms && r.0.enemies == s.enemies && r.0.coins == s.coins
    ensures r.0.lives == s.lives || r.0.lives == s.lives - 1
    ensures s.running ==>
              var p := Move(s.player, keys, s.platforms);
              var dies := p.y > FallLimit && !p.invulnerable;
              && (r.0.lives == s.lives - 1 <==> dies)
              && (!dies ==> r.0.player == p && r.0.particles == s.particles
                            && r.0.running && r.0.modal == s.modal
                            && r.0.camera == FollowCamera(s.camera, p.x, MaxCamera(s)))
              && (dies && s.lives > 1 ==>
                    && r.0.player.x == 50.0 && r.0.player.y == 350.0
                    && r.0.player.invulnerable && r.0.player.invTimer == InvulnerableFrames
                    && r.0.running && r.0.camera == FollowCamera(0.0, 50.0, MaxCamera(s)))
              && (dies && s.lives <= 1 ==>
                    && r.0.player == p && !r.0.running && r.0.modal == GameOver
                    && r.0.camera == FollowCamera(s.camera, p.x, MaxCamera(s)))
    ensures r.1.draw == g.draw
  {
    if !s.running then (s, g)
    else
      var p := Move(s.player, keys, s.platforms);
      var s1 := s.(player := p);
      var (s2, g1) := if p.y > FallLimit then HandleDeath(s1, Fall, g) else (s1, g);
      (s2.(camera := FollowCamera(s2.camera, s2.player.x, MaxCamera(s2))), g1)
  }

  // ---------------------------------------------------------------------
  // Enemy pass

  /** The enemy pass from index `i` on: each enemy patrols (a purple one
      first draws its pause chance), then a non-invulnerable player touching
      it dies. A death that leaves lives makes the player invulnerable, so
      with two or more lives a pass costs at most one. */
  function UpdateEnemiesFrom(s: Session, i: nat, g: Rng): (r: (Session, Rng))
    ensures |r.0.enemies| == |s.enemies|
    ensures r.0.score == s.score && r.0.level == s.level && r.0.goal == s.goal
    ensures r.0.platforms == s.platforms && r.0.coins == s.coins
    ensures r.0.lives <= s.lives
    ensures forall j :: 0 <= j < i && j < |s.enemies| ==> r.0.enemies[j] == s.enemies[j]
    ensures forall j :: i <= j < |s.enemies| ==>
              if s.enemies[j].kind == Purple
              then r.0.enemies[j] == Patrol(s.enemies[j], s.platforms, true)
                || r.0.enemies[j] == Patrol(s.enemies[j], s.platforms, false)
              else r.0.enemies[j] == Patrol(s.enemies[j], s.platforms, false)
    ensures s.player.invulnerable
            || (forall j :: i <= j < |s.enemies| ==> !Overlaps(Box(s.player), EnemyBox(r.0.enemies[j])))
            ==> r.0.lives == s.lives && r.0.player == s.player && r.0.particles == s.particles
    ensures !s.player.invulnerable
            && (exists j :: i <= j < |s.enemies| && Overlaps(Box(s.player), EnemyBox(r.0.enemies[j])))
            ==> r.0.lives < s.lives
    ensures s.lives >= 2 ==> r.0.lives >= s.lives - 1
    ensures r.1.draw == g.draw
    decreases |s.enemies| - i
  {
    if i >= |s.enemies| then (s, g)
    else
      var step := EnemyStep(s, i, g);
      UpdateEnemiesFrom(step.0, i + 1, step.1)
  }

  /** A purple enemy draws its pause chance from the stream; other kinds
      draw nothing. */
  function PauseDraw(e: Enemy, g: Rng): (bool, Rng)
  {
    if e.kind == Purple then (Next(g).0 < PauseChance, Next(g).1) else (false, g)
  }

  /** Enemy contact costs a life only while the player is not invulnerable. */
  predicate Touches(p: Player, e: Enemy)
  {
    !p.invulnerable && Overlaps(Box(p), EnemyBox(e))
  }

  /** Enemy `i` patrols, then a touched player dies. */
  function EnemyStep(s: Session, i: nat, g: Rng): (Session, Rng)
    requires i < |s.enemies|
  {
    var draw := PauseDraw(s.enemies[i], g);
    var s1 := s.(enemies := s.enemies[i := Patrol(s.enemies[i], s.platforms, draw.0)]);
    if Touches(s1.player, s1.enemies[i]) then HandleDeath(s1, EnemyContact, draw.1) else (s1, draw.1)
  }

  /** The whole enemy pass; enemies that start inside their patrol bands
      end it inside them. */
  function UpdateEnemies(s: Session, g: Rng): (r: (Session, Rng))
    ensures |r.0.enemies| == |s.enemies| && r.0.lives <= s.lives
    ensures EnemiesInBands(s) ==> EnemiesInBands(r.0)
  {
    assert EnemiesInBands(s) ==> EnemiesInBands(UpdateEnemiesFrom(s, 0, g).0) by {
      if EnemiesInBands(s) {
        UpdateEnemiesFromKeepsBands(s, 0, g);
      }
    }
    UpdateEnemiesFrom(s, 0, g)
  }

  /** Every enemy of the session names an existing home platform and
      stands inside its patrol band. */
  ghost predicate EnemiesInBands(s: Session)
  {
    EnemiesPlaced(s.enemies, s.platforms)
  }

  lemma {:induction false} UpdateEnemiesFromKeepsBands(s: Session, i: nat, g: Rng)
    requires EnemiesInBands(s)
    ensures EnemiesInBands(UpdateEnemiesFrom(s, i, g).0)
    decreases |s.enemies| - i
  {
    if i < |s.enemies| {
      var e := s.enemies[i];
      var draw := PauseDraw(e, g);
      PatrolStaysInBand(e, s.platforms, draw.0);
      PlacedAfterPatrol(s.enemies, s.platforms, i, Patrol(e, s.platforms, draw.0));
      var step := EnemyStep(s, i, g);
      assert step.0.enemies == s.enemies[i := Patrol(e, s.platforms, draw.0)];
      assert step.0.platforms == s.platforms;
      UpdateEnemiesFromKeepsBands(step.0, i + 1, step.1);
    }
  }

  /** Replacing one placed enemy by another placed enemy keeps the list placed. */
  lemma PlacedAfterPatrol(enemies: seq<Enemy>, platforms: seq<Rect>, i: nat, e: Enemy)
    requires EnemiesPlaced(enemies, platforms) && i < |enemies|
    requires HasHome(e, platforms) && InBand(e.x, platforms[e.home.value])
    ensures EnemiesPlaced(enemies[i := e], platforms)
  {
  }

  // ---------------------------------------------------------------------
  // Coin pass and goal

  /** The coin burst for one collected coin: six coin particles at its
      centre, drawn from the stream `g`. */
  function BurstAt(c: Coin, g: Rng): (r: seq<Particle>)
    ensures |r| == 6
  {
    CreateParticles(CentreOf(c).0, CentreOf(c).1, CoinSpark, CoinBurst, g).0
  }

  /** The stream after `k` coin bursts have been drawn from `g`. */
  function AfterBursts(g: Rng, k: nat): Rng
  {
    g.(pos := g.pos + 54 * k)
  }

  /** One six-particle coin burst per collected coin, at its centre, in
      the order the coins were collected: burst k occupies slots 6k to
      6k + 5 and is drawn from the stream after k earlier bursts. */
  function CoinBursts(taken: seq<Coin>, g: Rng): (r: (seq<Particle>, Rng))
    ensures |r.0| == 6 * |taken|
    ensures forall k :: 0 <= k < |taken| ==>
              r.0[6 * k .. 6 * k + 6] == BurstAt(taken[k], AfterBursts(g, k))
    ensures r.1 == AfterBursts(g, |taken|)
    decreases |taken|, 1
  {
    if |taken| == 0 then ([], g)
    else
      var rest := CoinBursts(taken[1..], AfterBursts(g, 1));
      BurstsCons(taken, g);
      assert AfterBursts(AfterBursts(g, 1), |taken| - 1) == AfterBursts(g, |taken|);
      (BurstAt(taken[0], g) + rest.0, rest.1)
  }

  /** The burst of the first coin followed by the bursts of the rest has
      every burst in its slot. */
  lemma BurstsCons(taken: seq<Coin>, g: Rng)
    requires |taken| > 0
    ensures var rest := CoinBursts(taken[1..], AfterBursts(g, 1)).0;
      forall k :: 0 <= k < |taken| ==>
        (BurstAt(taken[0], g) + rest)[6 * k .. 6 * k + 6] == BurstAt(taken[k], AfterBursts(g, k))
    decreases |taken|, 0
  {
    BurstSlices(taken, g, BurstAt(taken[0], g), CoinBursts(taken[1..], AfterBursts(g, 1)).0);
  }

  /** Placing the first coin's burst before the bursts of the remaining
      coins puts every burst at its own slot. */
  lemma BurstSlices(taken: seq<Coin>, g: Rng, ps1: seq<Particle>, ps2: seq<Particle>)
    requires |taken| > 0 && ps1 == BurstAt(taken[0], g) && |ps1| == 6
    requires |ps2| == 6 * (|taken| - 1)
    requires forall k :: 0 <= k < |taken| - 1 ==>
               ps2[6 * k .. 6 * k + 6] == BurstAt(taken[1..][k], AfterBursts(AfterBursts(g, 1), k))
    ensures forall k :: 0 <= k < |taken| ==>
              (ps1 + ps2)[6 * k .. 6 * k + 6] == BurstAt(taken[k], AfterBursts(g, k))
  {
    forall k | 0 <= k < |taken|
      ensures (ps1 + ps2)[6 * k .. 6 * k + 6] == BurstAt(taken[k], AfterBursts(g, k))
    {
      if k == 0 {
        assert (ps1 + ps2)[0 .. 6] == ps1;
        assert AfterBursts(g, 0) == g;
      } else {
        LaterBurstSlot(taken, g, ps1, ps2, k);
      }
    }
  }

  /** Slot k ≥ 1 of the combined list is slot k - 1 of the rest's bursts. */
  lemma LaterBurstSlot(taken: seq<Coin>, g: Rng, ps1: seq<Particle>, ps2: seq<Particle>, k: nat)
    requires 1 <= k < |taken| && |ps1| == 6 && |ps2| == 6 * (|taken| - 1)
    requires ps2[6 * (k - 1) .. 6 * (k - 1) + 6] == BurstAt(taken[1..][k - 1], AfterBursts(AfterBursts(g, 1), k - 1))
    ensures (ps1 + ps2)[6 * k .. 6 * k + 6] == BurstAt(taken[k], AfterBursts(g, k))
  {
    assert taken[1..][k - 1] == taken[k];
    SlotAfterFirst(ps1, ps2, k);
    assert AfterBursts(AfterBursts(g, 1), k - 1) == AfterBursts(g, k);
  }

  /** Slot k of a list that starts with one six-element burst is slot k - 1
      of the rest. */
  lemma SlotAfterFirst(a: seq<Particle>, b: seq<Particle>, k: nat)
    requires |a| == 6 && 1 <= k && 6 * k + 6 <= |a| + |b|
    ensures (a + b)[6 * k .. 6 * k + 6] == b[6 * (k - 1) .. 6 * (k - 1) + 6]
  {
  }

  /** Every particle of the coin bursts is a coin spark. */
  lemma {:induction false} CoinBurstsAreSparks(taken: seq<Coin>, g: Rng)
    ensures forall i :: 0 <= i < |CoinBursts(taken, g).0| ==> CoinBursts(taken, g).0[i].kind == CoinSpark
    decreases |taken|
  {
    if |taken| > 0 {
      CoinBurstsAreSparks(taken[1..], AfterBursts(g, 1));
      AllOfKind(BurstAt(taken[0], g), CoinBursts(taken[1..], AfterBursts(g, 1)).0, CoinSpark);
    }
  }

  lemma AllOfKind(a: seq<Particle>, b: seq<Particle>, k: ParticleKind)
    requires forall i :: 0 <= i < |a| ==> a[i].kind == k
    requires forall i :: 0 <= i < |b| ==> b[i].kind == k
    ensures forall i :: 0 <= i < |a + b| ==> (a + b)[i].kind == k
  {
  }

  /** The coin pass: the coins left are those the coin walk keeps; each
      collected coin is worth exactly 100 points and a burst of six coin
      particles at its centre. */
  function UpdateCoins(s: Session, bob: real -> real, g: Rng): (r: (Session, Rng))
    ensures r.0.coins == CoinWalk(s.coins, Box(s.player), bob).kept
    ensures r.0.particles == s.particles + CoinBursts(CoinWalk(s.coins, Box(s.player), bob).taken, g).0
    ensures |r.0.coins| <= |s.coins|
    ensures r.0.score == s.score + CoinScore * (|s.coins| - |r.0.coins|)
    ensures |r.0.particles| == |s.particles| + CoinBurst * (|s.coins| - |r.0.coins|)
    ensures r.0.particles[..|s.particles|] == s.particles
    ensures r.0.(coins := s.coins, score := s.score, particles := s.particles) == s
    ensures r.1.draw == g.draw
  {
    var pass := UpdateCoinList(s.coins, Box(s.player), bob);
    var bursts := CoinBursts(pass.taken, g);
    (s.(coins := pass.kept, score := s.score + CoinScore * |pass.taken|, particles := s.particles + bursts.0), bursts.1)
  }

  /** Reaching the goal: 50 points per coin still in the level, then the
      game stops with the level-complete dialog, or the game-won dialog on
      the last level. */
  function CheckGoal(s: Session): (r: Session)
    ensures !Overlaps(Box(s.player), s.goal) ==> r == s
    ensures Overlaps(Box(s.player), s.goal) ==>
              && r.score == s.score + GoalBonusPerCoin * |s.coins|
              && !r.running
              && r.modal == (if s.level < LevelCount then LevelComplete(GoalBonusPerCoin * |s.coins|) else GameWon)
              && r.(score := s.score, running := s.running, modal := s.modal) == s
  {
    if Overlaps(Box(s.player), s.goal) then
      var bonus := GoalBonusPerCoin * |s.coins|;
      var s1 := s.(score := s.score + bonus);
      if s.level < LevelCount then s1.(running := false, modal := LevelComplete(bonus))
      else s1.(running := false, modal := GameWon)
    else s
  }

  // ---------------------------------------------------------------------
  // One frame

  /** What rendering does to the simulation: while the screen shakes, two
      offsets are drawn from the stream and the shake dies down; nothing
      else changes. */
  function RenderShake(s: Session, g: Rng): (r: (Session, Rng))
    ensures r.1.draw == g.draw && r.1.pos == g.pos + (if s.shake > 0.0 then 2 else 0)
    ensures r.0.shake == DecayShake(s.shake)
    ensures r.0.(shake := s.shake) == s
  {
    if s.shake > 0.0 then
      var dx := Next(g);
      var dy := Next(dx.1);
      (s.(shake := DecayShake(s.shake)), dy.1)
    else (s, g)
  }

  /** One display frame: nothing while not running; otherwise the player,
      the enemies, the coins, the particles and the goal, in that order,
      and then the render, which runs even when the frame stopped the game. */
  function Frame(s: Session, keys: Keys, bob: real -> real, g: Rng): (r: (Session, Rng))
    ensures !s.running ==> r.0 == s
    ensures r.1.draw == g.draw
  {
    if !s.running then (s, g)
    else
      var (s1, g1) := UpdatePlayer(s, keys, g);
      var (s2, g2) := UpdateEnemies(s1, g1);
      var (s3, g3) := UpdateCoins(s2, bob, g2);
      var s4 := s3.(particles := UpdateParticles(s3.particles));
      RenderShake(CheckGoal(s4), g3)
  }

  /** Score over one frame: exactly 100 per coin that left the list, plus
      50 per remaining coin exactly when the player ends the frame on the
      goal, so it never decreases. */
  lemma FrameScore(s: Session, keys: Keys, bob: real -> real, g: Rng)
    requires s.running
    ensures var r := Frame(s, keys, bob, g).0;
      && r.score == s.score + CoinScore * (|s.coins| - |r.coins|)
                    + (if Overlaps(Box(r.player), r.goal) then GoalBonusPerCoin * |r.coins| else 0)
      && r.score >= s.score
  {
  }

  /** A sequence of frames driven by per-frame key states and a random
      stream; a game that is not running stays exactly as it is. */
  function Frames(s: Session, inputs: seq<Keys>, bob: real -> real, g: Rng): (r: Session)
    ensures !s.running ==> r == s
    ensures r.level == s.level && r.platforms == s.platforms && r.goal == s.goal
    decreases |inputs|
  {
    if |inputs| == 0 then s
    else
      var (s1, g1) := Frame(s, inputs[0], bob, g);
      Frames(s1, inputs[1..], bob, g1)
  }

  /** The score never decreases across any number of frames. */
  lemma {:induction false} FramesScoreMonotone(s: Session, inputs: seq<Keys>, bob: real -> real, g: Rng)
    ensures Frames(s, inputs, bob, g).score >= s.score
    decreases |inputs|
  {
    if |inputs| > 0 {
      var (s1, g1) := Frame(s, inputs[0], bob, g);
      if s.running {
        FrameScore(s, inputs[0], bob, g);
      }
      FramesScoreMonotone(s1, inputs[1..], bob, g1);
    }
  }

  // ---------------------------------------------------------------------
  // Level loading and progression

  /** Fresh coin phases: one draw per coin, scaled to [0, 60). */
  function SeedPhases(cs: seq<Coin>, g: Rng): (r: (seq<Coin>, Rng))
    ensures |r.0| == |cs|
    ensures forall i :: 0 <= i < |cs| ==> r.0[i] == cs[i].(phase := g.draw(g.pos + i) * 60.0)
    ensures r.1.draw == g.draw && r.1.pos == g.pos + |cs|
    decreases |cs|
  {
    if |cs| == 0 then ([], g)
    else
      var (d, g1) := Next(g);
      var (rest, g2) := SeedPhases(cs[1..], g1);
      ([cs[0].(phase := d * 60.0)] + rest, g2)
  }

  /** Loading the entities of a level: they replace the live ones, with
      fresh coin phases, the player and the camera go back to the start and
      the screen stops shaking. Score, lives, the level counter and the
      running flag are not touched. */
  function LoadLevel(s: Session, lv: Level, g: Rng): (r: (Session, Rng))
    ensures var t := r.0;
      && t.platforms == lv.platforms && t.enemies == lv.enemies && t.goal == lv.goal
      && |t.coins| == |lv.coins|
      && (forall i :: 0 <= i < |lv.coins| ==> t.coins[i].(phase := lv.coins[i].phase) == lv.coins[i])
      && t.player.x == 50.0 && t.player.y == 350.0
      && t.player.velX == 0.0 && t.player.velY == 0.0
      && t.player.anim == Idle && !t.player.invulnerable && t.player.invTimer == 0
      && t.camera == 0.0 && t.shake == 0.0
    ensures r.0.(platforms := s.platforms, enemies := s.enemies, coins := s.coins, goal := s.goal,
                 player := s.player, camera := s.camera, shake := s.shake) == s
    ensures r.0.player.(x := s.player.x, y := s.player.y, velX := s.player.velX, velY := s.player.velY,
                        anim := s.player.anim, invulnerable := s.player.invulnerable,
                        invTimer := s.player.invTimer) == s.player
    ensures r.1.draw == g.draw
  {
    var (cs, g1) := SeedPhases(lv.coins, g);
    var p := s.player.(x := 50.0, y := 350.0, velX := 0.0, velY := 0.0, anim := Idle,
                       invulnerable := false, invTimer := 0);
    (s.(platforms := lv.platforms, enemies := lv.enemies, coins := cs, goal := lv.goal,
        player := p, camera := 0.0, shake := 0.0), g1)
  }

  /** Loading a level by number: a number with no level changes nothing. */
  function InitLevel(s: Session, n: int, g: Rng): (r: (Session, Rng))
    ensures LevelData(n).None? ==> r.0 == s && r.1 == g
    ensures LevelData(n).Some? ==>
              && r.0.platforms == LevelData(n).value.platforms
              && r.0.enemies == LevelData(n).value.enemies
              && r.0.goal == LevelData(n).value.goal
              && |r.0.coins| == |LevelData(n).value.coins|
              && r.0.player.x == 50.0 && r.0.player.y == 350.0
              && r.0.player.velX == 0.0 && r.0.player.velY == 0.0
              && !r.0.player.invulnerable && r.0.camera == 0.0 && r.0.shake == 0.0
    ensures r.0.score == s.score && r.0.lives == s.lives && r.0.level == s.level
    ensures r.0.running == s.running && r.0.modal == s.modal && r.0.particles == s.particles
    ensures r.1.draw == g.draw
  {
    var d := LevelData(n);
    if d.None? then (s, g) else LoadLevel(s, d.value, g)
  }

  /** Continuing after a level: past the last level the game is won;
      otherwise the next level is loaded and play resumes. */
  function NextLevel(s: Session, g: Rng): (r: (Session, Rng))
    ensures r.0.level == s.level + 1
    ensures r.0.score == s.score && r.0.lives == s.lives
    ensures s.level + 1 > LevelCount ==> !r.0.running && r.0.modal == GameWon
    ensures 1 <= s.level + 1 <= LevelCount ==>
              r.0.running && r.0.modal == NoModal
              && r.0.platforms == LevelData(s.level + 1).value.platforms
              && r.0.enemies == LevelData(s.level + 1).value.enemies
    ensures r.1.draw == g.draw
  {
    var n := s.level + 1;
    var s1 := s.(level := n);
    if n > LevelCount then (s1.(running := false, modal := GameWon), g)
    else
      var (s2, g1) := InitLevel(s1, n, g);
      (s2.(running := true, modal := NoModal), g1)
  }

  /** Starting a game: score 0, three lives, level 1, running, no dialog
      (every caller hides them first), and level 1 loaded. */
  function StartGame(s: Session, g: Rng): (r: (Session, Rng))
    ensures r.0.score == 0 && r.0.lives == StartLives && r.0.level == 1 && r.0.running
    ensures r.0.modal == NoModal
    ensures r.0.platforms == Level1.platforms && r.0.enemies == Level1.enemies && r.0.goal == Level1.goal
    ensures r.0.camera == 0.0 && r.0.shake == 0.0 && r.0.particles == s.particles
    ensures r.1.draw == g.draw
  {
    InitLevel(s.(score := 0, lives := StartLives, level := 1, running := true, camera := 0.0,
                 shake := 0.0, modal := NoModal), 1, g)
  }

  /** Restarting: the particles are cleared and a new game starts. */
  function RestartGame(s: Session, g: Rng): (r: (Session, Rng))
    ensures r.0.score == 0 && r.0.lives == StartLives && r.0.level == 1 && r.0.running
    ensures r.0.particles == [] && r.0.modal == NoModal
    ensures r.1.draw == g.draw
  {
    StartGame(s.(particles := []), g)
  }

  // ---------------------------------------------------------------------
  // The session invariant

  /** What every frame keeps: non-negative score, the player within the
      physics bounds, the camera inside the level's camera range, and every
      enemy inside its home platform's patrol band. */
  ghost predicate Valid(s: Session)
  {
    && s.score >= 0
    && InBounds(s.player)
    && 0.0 <= s.camera <= MaxCamera(s)
    && EnemiesInBands(s)
  }

  lemma HandleDeathKeepsValid(s: Session, cause: DeathCause, g: Rng)
    requires Valid(s)
    ensures Valid(HandleDeath(s, cause, g).0)
  {
    var r := HandleDeath(s, cause, g).0;
    assert MaxCamera(r) == MaxCamera(s);
  }

  lemma UpdatePlayerKeepsValid(s: Session, keys: Keys, g: Rng)
    requires Valid(s)
    ensures Valid(UpdatePlayer(s, keys, g).0)
  {
    if s.running {
      var p := Move(s.player, keys, s.platforms);
      MoveKeepsBounds(s.player, keys, s.platforms);
      var s1 := s.(player := p);
      assert MaxCamera(s1) == MaxCamera(s);
      assert Valid(s1);
      var (s2, g1) := if p.y > FallLimit then HandleDeath(s1, Fall, g) else (s1, g);
      if p.y > FallLimit {
        HandleDeathKeepsValid(s1, Fall, g);
      }
      assert MaxCamera(s2) == MaxCamera(s);
    }
  }

  lemma {:induction false} UpdateEnemiesFromKeepsValid(s: Session, i: nat, g: Rng)
    requires Valid(s)
    ensures Valid(UpdateEnemiesFrom(s, i, g).0)
    decreases |s.enemies| - i
  {
    if i < |s.enemies| {
      var e := s.enemies[i];
      var draw := PauseDraw(e, g);
      var e' := Patrol(e, s.platforms, draw.0);
      PatrolStaysInBand(e, s.platforms, draw.0);
      PlacedAfterPatrol(s.enemies, s.platforms, i, e');
      var s1 := s.(enemies := s.enemies[i := e']);
      assert MaxCamera(s1) == MaxCamera(s);
      assert Valid(s1);
      if Touches(s1.player, e') {
        HandleDeathKeepsValid(s1, EnemyContact, draw.1);
      }
      UpdateEnemiesFromKeepsValid(EnemyStep(s, i, g).0, i + 1, EnemyStep(s, i, g).1);
    }
  }

  lemma CoinsAndGoalKeepValid(s: Session, bob: real -> real, g: Rng)
    requires Valid(s)
    ensures var s3 := UpdateCoins(s, bob, g).0;
      Valid(CheckGoal(s3.(particles := UpdateParticles(s3.particles))))
  {
    var s3 := UpdateCoins(s, bob, g).0;
    assert s3.player == s.player && s3.enemies == s.enemies && s3.platforms == s.platforms;
    assert s3.level == s.level && s3.goal == s.goal && s3.camera == s.camera;
    var s4 := s3.(particles := UpdateParticles(s3.particles));
    var s5 := CheckGoal(s4);
    assert s5.player == s.player && s5.enemies == s.enemies && s5.platforms == s.platforms;
    assert s5.level == s.level && s5.goal == s.goal && s5.camera == s.camera;
    ValidCarriesOver(s, s5);
  }

  /** Validity depends only on the score, the player, the camera and the
      level's layout, so a session that keeps those and does not lose
      score stays valid. */
  lemma ValidCarriesOver(a: Session, b: Session)
    requires Valid(a) && b.score >= a.score && b.player == a.player && b.camera == a.camera
    requires b.level == a.level && b.goal == a.goal && b.enemies == a.enemies && b.platforms == a.platforms
    ensures Valid(b)
  {
    assert MaxCamera(b) == MaxCamera(a);
  }

  /** The session invariant survives a whole frame. */
  lemma FrameKeepsValid(s: Session, keys: Keys, bob: real -> real, g: Rng)
    requires Valid(s)
    ensures Valid(Frame(s, keys, bob, g).0)
  {
    if s.running {
      var (s1, g1) := UpdatePlayer(s, keys, g);
      UpdatePlayerKeepsValid(s, keys, g);
      var (s2, g2) := UpdateEnemies(s1, g1);
      UpdateEnemiesFromKeepsValid(s1, 0, g1);
      CoinsAndGoalKeepValid(s2, bob, g2);
      var (s3, g3) := UpdateCoins(s2, bob, g2);
      var s5 := CheckGoal(s3.(particles := UpdateParticles(s3.particles)));
      ValidCarriesOver(s5, RenderShake(s5, g3).0);
    }
  }

  /** Valid sessions stay valid across any number of frames. */
  lemma {:induction false} FramesKeepValid(s: Session, inputs: seq<Keys>, bob: real -> real, g: Rng)
    requires Valid(s)
    ensures Valid(Frames(s, inputs, bob, g))
    decreases |inputs|
  {
    if |inputs| > 0 {
      var (s1, g1) := Frame(s, inputs[0], bob, g);
      FrameKeepsValid(s, inputs[0], bob, g);
      FramesKeepValid(s1, inputs[1..], bob, g1);
    }
  }

  /** Starting a game yields a valid session, whatever came before, as long
      as the player was within bounds. */
  lemma StartGameIsValid(s: Session, g: Rng)
    requires InBounds(s.player)
    ensures Valid(StartGame(s, g).0)
  {
    LevelTableWellFormed(1);
  }

  /** The first game started after the page loads begins valid, with no
      particles, and the player standing at the level start. */
  lemma PageLoadStartsValid(g: Rng)
    ensures var s := StartGame(PageLoad, g).0;
      && Valid(s) && s.particles == [] && s.player.x == 50.0 && s.player.y == 350.0
  {
    StartGameIsValid(PageLoad, g);
  }

  /** Moving on to a level of the table yields a valid session (past the
      last level the game is won and the camera range no longer applies). */
  lemma NextLevelKeepsValid(s: Session, g: Rng)
    requires Valid(s) && s.level < LevelCount
    ensures Valid(NextLevel(s, g).0)
  {
    var n := s.level + 1;
    if 1 <= n {
      LevelTableWellFormed(n);
    } else {
      var r := NextLevel(s, g).0;
      assert MaxCamera(s) == 0.0 && MaxCamera(r) == 0.0;
    }
  }

  // ---------------------------------------------------------------------
  // Deaths in the enemy pass

  /** While the player is invulnerable the enemy pass cannot hurt: lives,
      particles, the player, the camera and the running flag are untouched. */
  lemma {:induction false} InvulnerableIgnoresEnemies(s: Session, i: nat, g: Rng)
    requires s.player.invulnerable
    ensures var r := UpdateEnemiesFrom(s, i, g).0;
      && r.lives == s.lives && r.particles == s.particles && r.player == s.player
      && r.camera == s.camera && r.running == s.running && r.modal == s.modal
    decreases |s.enemies| - i
  {
    if i < |s.enemies| {
      var step := EnemyStep(s, i, g);
      InvulnerableIgnoresEnemies(step.0, i + 1, step.1);
    }
  }

  /** A red or pink enemy that the player touches after its patrol step:
      the last life is lost and the game is over. */
  lemma LastLifeLostToEnemy(s: Session, e: Enemy, g: Rng)
    requires s.enemies == [e] && e.kind != Purple
    requires Overlaps(Box(s.player), EnemyBox(Patrol(e, s.platforms, false)))
    requires s.lives == 1 && !s.player.invulnerable
    ensures var r := UpdateEnemies(s, g).0;
      r.lives == 0 && !r.running && r.modal == GameOver
  {
    var step := EnemyStep(s, 0, g);
    assert step.0.lives == 0 && !step.0.running && step.0.modal == GameOver;
    assert UpdateEnemiesFrom(step.0, 1, step.1).0 == step.0;
  }

  /** The source does not clamp lives at 0: with one life left and two
      touching enemies, the first contact ends the game without making the
      player invulnerable, so the second contact in the same pass takes
      lives to -1. */
  lemma LivesCanDropBelowZero(s: Session, e1: Enemy, e2: Enemy, g: Rng)
    requires s.enemies == [e1, e2] && e1.kind != Purple && e2.kind != Purple
    requires Overlaps(Box(s.player), EnemyBox(Patrol(e1, s.platforms, false)))
    requires Overlaps(Box(s.player), EnemyBox(Patrol(e2, s.platforms, false)))
    requires s.lives == 1 && !s.player.invulnerable
    ensures UpdateEnemies(s, g).0.lives == -1
  {
    var step1 := EnemyStep(s, 0, g);
    ContactWithoutLivesLeft(s, 0, g);
    assert step1.0.enemies[1] == e2;
    var step2 := EnemyStep(step1.0, 1, step1.1);
    ContactWithoutLivesLeft(step1.0, 1, step1.1);
    assert UpdateEnemiesFrom(step2.0, 2, step2.1).0 == step2.0;
    assert UpdateEnemiesFrom(step1.0, 1, step1.1) == UpdateEnemiesFrom(step2.0, 2, step2.1);
  }

  /** A red or pink enemy touching a player with at most one life left
      costs that life but leaves the player where it was and vulnerable,
      and the other enemies as they were. */
  lemma ContactWithoutLivesLeft(s: Session, i: nat, g: Rng)
    requires i < |s.enemies| && s.enemies[i].kind != Purple
    requires Overlaps(Box(s.player), EnemyBox(Patrol(s.enemies[i], s.platforms, false)))
    requires s.lives <= 1 && !s.player.invulnerable
    ensures var t := EnemyStep(s, i, g).0;
      && t.lives == s.lives - 1 && t.player == s.player && t.platforms == s.platforms
      && |t.enemies| == |s.enemies|
      && forall j :: 0 <= j < |s.enemies| && j != i ==> t.enemies[j] == s.enemies[j]
  {
    assert PauseDraw(s.enemies[i], g) == (false, g);
  }

  /** A player touching the first coin of level 1, at (470, 360, 20, 20),
      with no bobbing, takes it for exactly 100 points and six coin
      particles. */
  lemma CoinPickup(s: Session, g: Rng)
    requires s.coins == [Coin(470.0, 360.0, 20.0, 20.0, 0.0)]
    requires Overlaps(Box(s.player), Rect(470.0, 360.0, 20.0, 20.0))
    ensures var r := UpdateCoins(s, (a: real) => 0.0, g).0;
      && r.coins == [] && r.score == s.score + 100
      && |r.particles| == |s.particles| + 6
      && r.particles[..|s.particles|] == s.particles
      && r.particles[|s.particles|..] == BurstAt(Coin(470.0, 360.0, 20.0, 20.0, 0.2), g)
      && forall i :: |s.particles| <= i < |r.particles| ==> r.particles[i].kind == CoinSpark
  {
    var bob := (a: real) => 0.0;
    var c := Bob(s.coins[0], bob);
    assert c == Coin(470.0, 360.0, 20.0, 20.0, 0.2);
    assert CoinBox(c) == Rect(470.0, 360.0, 20.0, 20.0);
    assert CoinWalk(s.coins, Box(s.player), bob) == CoinPass([], [c]);
    var bursts := CoinBursts([c], g).0;
    CoinBurstsAreSparks([c], g);
    assert bursts == bursts[6 * 0 .. 6 * 0 + 6] == BurstAt(c, AfterBursts(g, 0));
    assert AfterBursts(g, 0) == g;
    var r := UpdateCoins(s, bob, g).0;
    assert r.particles == s.particles + bursts;
    assert r.particles[|s.particles|..] == bursts;
  }

  /** Reaching the goal with three coins left is worth 150 points. */
  lemma GoalWithThreeCoins(s: Session)
    requires |s.coins| == 3 && Overlaps(Box(s.player), s.goal)
    ensures CheckGoal(s).score == s.score + 150 && !CheckGoal(s).running
  {
  }
}

=== FILE: shake.dfy ===
/** The screen shake: a death starts it, and while it lasts every rendered
    frame draws a random offset pair and lets it die down by a tenth,
    snapping to 0 below 0.5. The offsets only move the picture; what the
    simulation sees is how many frames take the two draws. */
module ScreenShake {
  const FallShake: real := 25.0
  const EnemyShake: real := 15.0
  const GameOverShake: real := 30.0
  const ShakeDecay: real := 0.9
  const ShakeCutoff: real := 0.5

  /** One rendered frame of shake. A positive shake shrinks to nine tenths,
      or to exactly 0 once that is below the cutoff; no shake stays as it is. */
  function DecayShake(v: real): (w: real)
    ensures v <= 0.0 ==> w == v
    ensures v > 0.0 ==> 0.0 <= w < v
    ensures v > 0.0 ==> (w == 0.0 <==> ShakeDecay * v < ShakeCutoff)
    ensures w > 0.0 ==> w == ShakeDecay * v && w >= ShakeCutoff
  {
    if v > 0.0 then
      var d := v * ShakeDecay;
      if d < ShakeCutoff then 0.0 else d
    else v
  }

  /** The shake after `n` rendered frames. */
  function ShakeN(v: real, n: nat): real
  {
    if n == 0 then v else DecayShake(ShakeN(v, n - 1))
  }

  /** The shake without the cutoff: v * 0.9^n. */
  function Scale(v: real, n: nat): real
  {
    if n == 0 then v else ShakeDecay * Scale(v, n - 1)
  }

  /** Once settled at 0 the shake stays settled: no more draws are taken. */
  lemma {:induction false} SettledStaysSettled(n: nat)
    ensures ShakeN(0.0, n) == 0.0
  {
    if n > 0 {
      SettledStaysSettled(n - 1);
    }
  }

  /** Until the cutoff is reached the shake is plain geometric decay. */
  lemma {:induction false} ShakeFollowsScale(v: real, n: nat)
    requires v > 0.0 && Scale(v, n) >= ShakeCutoff
    ensures ShakeN(v, n) == Scale(v, n)
  {
    if n > 0 {
      ShakeFollowsScale(v, n - 1);
    }
  }

  lemma ScaleFourMore(v: real, n: nat)
    ensures Scale(v, n + 4) == 0.6561 * Scale(v, n)
  {
    assert Scale(v, n + 4) == ShakeDecay * Scale(v, n + 3);
    assert Scale(v, n + 3) == ShakeDecay * Scale(v, n + 2);
    assert Scale(v, n + 2) == ShakeDecay * Scale(v, n + 1);
  }

  /** The shake of a fall death (25) is still positive after 37 rendered
      frames and 0 after the 38th: exactly 38 frames take the two draws. */
  lemma FallShakeLasts38Frames()
    ensures ShakeN(FallShake, 37) > 0.0 && ShakeN(FallShake, 38) == 0.0
  {
    var v := FallShake;
    ScaleFourMore(v, 0);
    ScaleFourMore(v, 4);
    ScaleFourMore(v, 8);
    ScaleFourMore(v, 12);
    ScaleFourMore(v, 16);
    ScaleFourMore(v, 20);
    ScaleFourMore(v, 24);
    ScaleFourMore(v, 28);
    ScaleFourMore(v, 32);
    assert Scale(v, 37) == ShakeDecay * Scale(v, 36);
    assert Scale(v, 37) > 0.5068 && Scale(v, 37) < 0.5069;
    ShakeFollowsScale(v, 37);
  }

  /** The shake of an enemy death (15) is still positive after 32 rendered
      frames and 0 after the 33rd: exactly 33 frames take the two draws. */
  lemma EnemyShakeLasts33Frames()
    ensures ShakeN(EnemyShake, 32) > 0.0 && ShakeN(EnemyShake, 33) == 0.0
  {
    var v := EnemyShake;
    ScaleFourMore(v, 0);
    ScaleFourMore(v, 4);
    ScaleFourMore(v, 8);
    ScaleFourMore(v, 12);
    ScaleFourMore(v, 16);
    ScaleFourMore(v, 20);
    ScaleFourMore(v, 24);
    ScaleFourMore(v, 28);
    assert Scale(v, 32) > 0.515 && Scale(v, 32) < 0.5151;
    ShakeFollowsScale(v, 32);
  }
}
